=== FILE: README.md ===
# x-window-selector, modelled in Dafny

`x-window-selector` draws a short string of characters over every visible
top-level X window. Typing one of those strings prints the ID of the window
it covers and exits. Any key that does not continue a string ends the
program, which then prints nothing. This project models the program's core
in Dafny and proves properties of that model:

- **Alphabet compilation** (`keysyms.dfy`). The `CHARACTERS` argument becomes
  the user's alphabet. The fixed table accepts only `[0-9a-z]`, each
  character with its keysym. The first unknown character is reported,
  repeated characters are dropped, and fewer than two distinct characters is
  a usage error.
- **Command line and output** (`cli.dfy`). `--blacklist`/`--whitelist` take
  window IDs, which must be non-zero 32-bit values. `--format` is `decimal`
  or `hexadecimal`. Parsing dispatches per option, and the positional
  `CHARACTERS` argument is required. The chosen window is printed with
  `%d\n` or `0x%x\n`. `%d` prints the 32-bit ID as a *signed* `int`, and
  the model keeps that. The argument dispatch is stated against an
  independent reading of the command line: the first refused argument's
  error, the option values in order, and the last value of each setting.
- **Window filter** (`window_filter.dfy`). From the root's children it keeps,
  in the server's order, the windows that are:
  - managed by the window manager, when `_NET_CLIENT_LIST` exists (read with
    a length of 1024 values, so the list is cut there);
  - whitelisted, when there is a whitelist;
  - not blacklisted;
  - viewable and not override-redirect;
  - untyped or of a labelled `_NET_WM_WINDOW_TYPE`.

  A missing reply to one of the per-window requests the filter makes is
  fatal.
- **Label tree** (`label_tree.dfy`). The windows are split into a balanced
  tree with fan-out K, the alphabet size. The depth is `floor(log_K(max(n - 1, 1)))`.
  - At every level, `m` windows go into `min(m, K)` buckets. The first
    `m mod K` buckets take one window more than the rest.
  - A bucket of one window becomes a leaf. A larger bucket becomes an
    internal node one level down.
  - Child `j` always carries alphabet character `j`.
- **Overlays** (`overlays.dfy`). Only leaves own an overlay window. Labels
  are spelled from the *current* frontier, so each level's own character is
  appended to the prefix, and a prefix too long for a 255-character text is
  refused with a warning. Freeing a subtree destroys the overlays of its
  leaves.
- **Selection** (`selection.dfy`, `program.dfy`). `main` starts up on the
  built frontier:
  - no window ends with no match;
  - one window is printed at once;
  - otherwise the labels are drawn and the event loop runs.

  Each event is handled as follows:
  - an error reply ends the run;
  - `Expose` redraws;
  - a key press is translated through the alphabet. An unknown key ends
    with no match. A known one descends into the node carrying its
    character and frees every other node of the frontier. A leaf prints its
    window.

The X server's answers and the events it delivers are inputs of the model.
Connecting to the server and grabbing the keyboard are taken to succeed.
An overlay is identified by the window it covers.

The main results:

- The builder keeps every window exactly once, in order. It returns
  `min(n, K)` nodes and shapes a well-formed tree. It never needs more
  alphabet characters than exist, and its depth is the least that holds the
  windows.
- Typing the label drawn on a window's overlay chooses that window, from
  any frontier the builder shapes (`Selection.TypingLabelChooses`).
- Conversely, a run of key presses that chooses a window begins with that
  window's label (`Selection.ChoosingTypesLabel`).
- Whatever the events, only a selected window is ever printed.
- The printed line reads back as the chosen window in both formats.
- The filter's result is exactly the windows that pass every check, in
  server order.

## Behaviour worth noting

The model follows the code in each of these cases.

- **Depth.** The depth is the integer part of the floating-point quotient
  `log(max(n - 1, 1)) / log(K)` (`src/x-window-selector.c:1142-1144`), so
  it is a floor. The model uses the exact integer floor-logarithm and
  proves it sufficient and least (`LabelTree.TreeDepth`).
- **Label text.** After each key the labels are spelled again from the new
  frontier: `overlays_set_text` starts from the empty prefix (line 1025).
  So each label shows only the characters still to type
  (`Overlays.Redraw`, `Selection.DescendRelabels`).
- **Repeated alphabet characters.** A repeated character of `CHARACTERS`
  is skipped without an error (lines 1379-1383). Only an unknown character
  or fewer than two distinct characters is an error.
- **No window.** An empty frontier at start-up exits through
  `xcw_exit_no_match` (line 1582), the same exit as a key that matches
  nothing, so the model reports it as `NoMatch`.

## Model

| member | source | states |
|---|---|---|
| Base.Min | src/x-window-selector.c:178-182 | The result is at most both arguments and is one of them. |
| Base.Max | src/x-window-selector.c:187-191 | The result is at least both arguments and is one of them. |
| Keysyms.FindChar | src/x-window-selector.c:794-802 | Returns the index of the first entry with character `c`, or None exactly when no entry has it. |
| Keysyms.FindKeysym | src/x-window-selector.c:813-824 | Returns the index of the first entry with keysym `k`, or None exactly when no entry has it. |
| Keysyms.TableShape | src/x-window-selector.c:156-171 | The table has 36 entries: `0`-`9` then `a`-`z`, in order, each keysym equal to the character's code. |
| Keysyms.FindCharInTable | src/x-window-selector.c:1373-1378 | Searching the table succeeds exactly for `[0-9a-z]` and returns that character's entry. |
| Keysyms.LookupInverts | src/x-window-selector.c:794-824 | In a valid alphabet, an entry's character and its keysym both lead back to that entry. |
| Keysyms.DedupFacts | src/x-window-selector.c:1379-1383 | Dropping repeats leaves distinct characters, and exactly the characters of the argument. |
| Keysyms.ParseCharacters | src/x-window-selector.c:1361-1391 | Succeeds exactly when every character is in `[0-9a-z]` and at least two are distinct. The result is the distinct characters in first-occurrence order, each with its own keysym. Otherwise the error names the first unknown character, or says there are too few. |
| Keysyms.CompileFromSpec | src/x-window-selector.c:1372-1388 | From any iteration on, the compiling loop yields that same result, given that the lookup so far holds the distinct characters seen. |
| Keysyms.CompileStep | src/x-window-selector.c:1373-1383 | One iteration on a known character keeps the lookup equal to the distinct characters seen, in first-occurrence order. |
| Cli.ParseWindowList | src/x-window-selector.c:1400-1416 | Accepts exactly an error-free value in `1..0xffffffff` and appends it, leaving the earlier IDs unchanged. Otherwise it reports an invalid window ID. |
| Cli.ParseFormat | src/x-window-selector.c:1425-1434 | `decimal` and `hexadecimal` select their format. Anything else is an error naming the value. |
| Cli.ApplyArg | src/x-window-selector.c:1475-1506 | One key is refused exactly when its own reading refuses it (a bad ID, an unknown format, a bad or second `CHARACTERS`), with that error. An accepted key appends its ID to its own list, replaces only its own setting, or compiles `CHARACTERS` as the first positional argument; every other field is unchanged. |
| Cli.ApplyArgs | src/x-window-selector.c:1559 | Applying the keys in order fails exactly when some key is refused, with the first refused key's error. On success the lists gain the option values in order, each setting takes its last value, and `CHARACTERS` is compiled exactly when it is given, at most once. |
| Cli.FirstRefusalIsFirst | src/x-window-selector.c:1475-1506 | The first refusal is none exactly when every key is accepted in its place, and otherwise is the error of a refused key before which every key is accepted. |
| Cli.ApplyArgsInvariant | src/x-window-selector.c:1475-1506 | Every accepted key keeps the input well-parsed: the alphabet is present exactly after `CHARACTERS` and is then valid with at least two entries, and no listed ID is 0. |
| Cli.ParseArgs | src/x-window-selector.c:1514-1564 | Parsing succeeds exactly when no key is refused and `CHARACTERS` is given. Otherwise the error is the first refused key's, or the missing `CHARACTERS`. On success the alphabet is `CHARACTERS` compiled (valid, at least two characters), the lists are the given IDs in order (none 0), the format is the last `--format` (decimal when absent), and the font settings are their last values. |
| Cli.AsSignedInt | src/x-window-selector.c:261-262 | `%d` reads the ID as a signed 32-bit value: it lies in `[-2^31, 2^31)` and equals the ID modulo `2^32`. |
| Cli.Digits | src/x-window-selector.c:259-266 | The digits are at least one digit character, and a positive number has no leading zero. |
| Cli.ChooseWindow | src/x-window-selector.c:259-266 | The printed line ends with a newline. In hexadecimal it starts with `0x`. In decimal an ID below `2^31` prints as its digits, and a larger one as `-` followed by the digits of `2^32` minus the ID. |
| Cli.DigitsRoundTrip | src/x-window-selector.c:259-266 | The digits printed for a number in base 10 or 16 read back as that number. |
| Cli.ChooseWindowRoundTrip | src/x-window-selector.c:259-266 | The printed line reads back as the chosen window, in either format. |
| WindowFilter.ManagedWindows | src/x-window-selector.c:664-699 | The managed list exists exactly when the root has `_NET_CLIENT_LIST`, and holds its first `min(length, 1024)` IDs. |
| WindowFilter.ContainsWindow | src/x-window-selector.c:726-739 | The scan answers true exactly when the ID is in the list. |
| WindowFilter.XorgWindowNormalExactly | src/x-window-selector.c:582-593 | A window's attributes are normal exactly when it is viewable and not override-redirect; any other map state, or override-redirect, is refused. |
| WindowFilter.EwmhWindowNormalExactly | src/x-window-selector.c:600-627 | A window type is refused exactly when the list has a first type and that type is desktop, dock, dropdown menu, popup menu, tooltip, notification, combo, dnd or an unnamed atom. No type, or a first type among toolbar, menu, utility, splash, dialog and normal, is accepted. Only the first type is read. |
| WindowFilter.Admit | src/x-window-selector.c:1301-1322 | For one window, the left-to-right condition fails exactly when a reply it asks for is missing, and reports that request. Otherwise it admits exactly the selectable windows. |
| WindowFilter.InitialiseTrackedWindows | src/x-window-selector.c:1286-1334 | Succeeds exactly when no window needs a missing reply, and then returns the selectable windows in server order. On failure it reports the first window whose needed reply is missing. |
| WindowFilter.SelectedMembership | src/x-window-selector.c:1301-1327 | A window is selected exactly when some top-level window with that ID passes every check. |
| WindowFilter.SelectedIsSubsequence | src/x-window-selector.c:1301-1327 | The selected IDs keep the server's order: they are a subsequence of all IDs. |
| LabelTree.FloorLog | src/x-window-selector.c:1142-1144 | The depth `d` satisfies `K^d <= n < K^(d+1)`. |
| LabelTree.TreeDepth | src/x-window-selector.c:1136-1149 | The depth is the floor of `log_K(max(n - 1, 1))`. With it the windows fit in `K^(d+1)` leaves, which keeps `ksl[i]` in bounds at depth 0, and a positive depth is needed: `n > K^d`. |
| LabelTree.Build | src/x-window-selector.c:1073-1126 | The builder returns `min(n, K)` nodes, node `j` carrying alphabet character `j`. |
| LabelTree.BuildLevel | src/x-window-selector.c:1100-1124 | The loop from bucket `i` makes one node per remaining bucket, node `j` carrying character `i + j`. |
| LabelTree.BuildFacts | src/x-window-selector.c:1073-1126 | The builder keeps every window once and in order, returns `min(n, K)` nodes, and shapes a well-formed forest: 2 to K children per internal node, child `j` carrying character `j`. |
| LabelTree.BuildLevelFacts | src/x-window-selector.c:1100-1124 | The loop over buckets consumes the windows left to right. Each node holds its bucket's windows, carries its index's character, and is a leaf exactly when the bucket holds one window. |
| LabelTree.BuildPartition | src/x-window-selector.c:1091-1124 | At depth > 0, `m` windows go into `min(m, K)` non-empty buckets. The first `m mod K` hold `m div K + 1` windows and the rest `m div K`. Bucket `j` carries character `j` and is a leaf exactly when it holds one window. |
| LabelTree.InitialiseWindowTracking | src/x-window-selector.c:1136-1149 | The initial frontier holds every window once and in order and is well-formed with `min(n, K)` nodes. It is empty exactly for no windows and a single leaf exactly for one window. |
| Overlays.Free | src/x-window-selector.c:1189-1214 | Freeing a node only destroys overlays, and destroys exactly those of its leaves, left to right. |
| Overlays.FreeEach | src/x-window-selector.c:1205-1210 | Freeing a list of nodes destroys exactly the overlays of their leaves, in order. |
| Overlays.Render | src/x-window-selector.c:989-1017 | Rendering never destroys anything. Every text it draws extends the prefix by at least one character and has at most 255 characters. A prefix with no room for one more character yields only the warning. |
| Overlays.RenderEach | src/x-window-selector.c:1001-1016 | With room for one more character, rendering each node destroys nothing and draws only texts that extend the prefix and fit in 255 characters. |
| Overlays.RenderNode | src/x-window-selector.c:1002-1013 | With room for one more character, what a node draws, on its own overlay or through its children, extends the prefix and fits in 255 characters, and nothing is destroyed. |
| Overlays.Redraw | src/x-window-selector.c:1023-1028 | Relabelling destroys nothing and draws only texts of 1 to 255 characters. |
| Overlays.RenderDrawsLabels | src/x-window-selector.c:989-1017 | When the longest label fits, rendering draws `prefix` plus each leaf's label on that leaf's overlay, in leaf order, with no warning and no draw for internal nodes. |
| Overlays.RedrawCoversLeaves | src/x-window-selector.c:1023-1028 | When the labels fit, relabelling a frontier draws on each of its windows exactly once, in order. |
| Overlays.BuildHeight | src/x-window-selector.c:1073-1126 | Labels of a tree built with `d` levels to go have at most `d + 1` characters. |
| Overlays.DepthBelow32 | src/x-window-selector.c:1142-1144 | For fewer than `2^32` windows the depth is below 32. |
| Overlays.InitialLabelsFit | src/x-window-selector.c:994-1000 | The initial labels have at most 32 characters, so the 255-character refusal never fires on them and every overlay shows its window's label. |
| Selection.FindNode | src/x-window-selector.c:1263-1269 | Returns the index of the first node carrying the character, or None exactly when no node does. |
| Selection.Choose | src/x-window-selector.c:1222-1231 | A leaf is chosen and draws nothing. An internal node's children become the frontier, holding exactly the node's windows, and are relabelled from that frontier. No overlay is destroyed. |
| Selection.DescendByIndex | src/x-window-selector.c:1240-1251 | Choosing a leaf chooses its window after freeing only the nodes before it. Choosing an internal node makes its children the frontier: the nodes before it are freed, the children are relabelled, then the nodes after it are freed, so exactly the overlays of every other node are destroyed, in order. |
| Selection.DescendRelabels | src/x-window-selector.c:1222-1251 | On a builder-shaped frontier whose labels fit, descending into an internal node draws exactly each of its windows' labels, spelled from the new frontier, between the two batches of frees. |
| Selection.DescendByChar | src/x-window-selector.c:1261-1275 | The run ends with no match, and no effect, exactly when no node carries the character. Otherwise it chooses one of the frontier's windows or keeps a subset of them. |
| Selection.DescendFreesSiblings | src/x-window-selector.c:1240-1251 | Descending into an internal node makes its children the frontier. It destroys exactly the other nodes' overlays, so destroyed plus still-alive overlays are the old live overlays, each once. Choosing a leaf destroys only the overlays before it. |
| Selection.KeypressPicksIndex | src/x-window-selector.c:1341-1352 | On a builder-shaped frontier, the key of alphabet character `i` descends into node `i` when there is one and otherwise ends with no match. A key outside the alphabet ends with no match. |
| Selection.HandleKeypress | src/x-window-selector.c:1341-1352 | A keysym outside the alphabet ends with no match and no effect. Any other key ends with no match, chooses one of the frontier's windows, or keeps a subset of them. |
| Selection.HandleEvent | src/x-window-selector.c:1590-1609 | Only an error reply is an error. `Expose` and ignored events keep the frontier and destroy nothing. On a builder-shaped frontier whose labels fit, `Expose` draws every window's current label on its overlay again. No event adds a window to the frontier or chooses one outside it. |
| Selection.RedrawShowsLabels | src/x-window-selector.c:1023-1028 | On a well-formed frontier whose labels fit, relabelling draws each leaf's label, spelled from the frontier, on that leaf's overlay. |
| Selection.Start | src/x-window-selector.c:1581-1587 | Start-up ends with no match exactly for an empty frontier. A chosen window is one of the frontier's, chosen without drawing. Otherwise selection starts on the frontier's windows. Nothing is destroyed. |
| Selection.Run | src/x-window-selector.c:1590-1609 | A run that has ended stays ended. Whatever the events, a run from a frontier only chooses one of its windows and never gains a window. |
| Selection.StartOnWindows | src/x-window-selector.c:1578-1587 | On the built frontier, start-up ends with no match for no windows and chooses the one window at once without drawing. Otherwise every window's overlay is alive and, for fewer than `2^32` windows, shows exactly that window's label. |
| Selection.TypingLabelChooses | src/x-window-selector.c:1589-1609 | From any builder-shaped frontier, typing the label drawn on a window chooses exactly that window. |
| Selection.ChoosingTypesLabel | src/x-window-selector.c:1589-1609 | Conversely, key presses that choose a window begin with that window's label. |
| Program.Report | src/x-window-selector.c:241-266 | A line is printed exactly when a window was chosen, and it reads back as that window. No match, an event error and a run still waiting are reported as such. |
| Program.InitialFrontier | src/x-window-selector.c:1576-1578 | The initial frontier holds each selected window once, in order, and is labelled with the alphabet. |
| Selection.ThreeWindowsFrontier | src/x-window-selector.c:1073-1126 | With alphabet `ab` and three windows, the first two are under `a` and the third is the leaf `b`. |
| Selection.ThreeWindowsKeys | src/x-window-selector.c:1261-1275 | On that frontier, `b` chooses the third window, `aa` and `ab` the first two, and `c` ends with no match. |
| Program.Select | src/x-window-selector.c:1578-1609 | The printed window is always a selected one. No window exits with no match, one window prints at once, and otherwise typing a drawn label prints that label's window. |
| Program.Session | src/x-window-selector.c:1567-1612 | A bad command line is a usage failure. Otherwise the process fails exactly when a per-window reply that the filter asks for is missing, and else selects among the filtered windows. |

## Left out

- Connecting to the X server, the keyboard grab and its retry loop, and
  exiting when either fails are left out. Both are assumed to succeed.
- Querying window geometry, creating overlays, graphics contexts, colours,
  FreeType glyph loading and text centring are left out. A draw request is
  modelled as the overlay plus the text. So is the `character %d not
  found` line that `load_glyph` prints on stdout for a character missing
  from the font (line 365); it would come before the chosen window's line.
- The poll loop's timing and `xcb_flush` are left out. Events are a finite
  sequence, and a run that has not ended is reported as still waiting.
- Keycode-to-keysym translation (`xcb_key_press_lookup_keysym`) is not
  modelled. The keysym is an input of each key press.
- `strtol`, `atoi` and argp's handling of the command line are not modelled.
  Their results are the inputs: the parsed value and the `errno` flag, and
  the keys in delivery order. `--font-size` and `--font-path` are stored
  and never read by the modelled core.
- Memory management (`calloc`/`realloc`/`free`) is not modelled. The old
  frontier array, which the code never frees after a descent, is not
  modelled either. Only the overlay destruction of `wsetup_free` is.
- WindowFilter.EwmhWindowNormal: `ewmh_window_normal` frees the
  `_NET_WM_WINDOW_TYPE` reply (line 616) and then reads its first type
  from the freed memory (lines 620-625). The model takes that read to see
  the type the reply carried.
- The debug printing (`wsetup_debug_print`) is left out because it has no
  effect on the selection.
- Exit statuses appear only as outcome names (`EX_USAGE` 64, `EX_SOFTWARE`
  70, 0 otherwise). Messages on stderr are not modelled.
- LabelTree.TreeDepth: this is the exact floor-logarithm, not the source's
  floating-point `(int)(log(max(n - 1, 1)) / log(K))`. When the
  floating-point quotient falls just below an integer (`log(1000) / log(10)`
  in IEEE double arithmetic is a likely case), the source's depth is one
  less than the floor. A depth-0 call would then receive more windows than
  the alphabet has characters. That behaviour is not modelled.
- Cli.ReadWindow is a reader written for the round-trip lemma; the program
  has no such reader.
- Replies to the requests that are not about one candidate window are
  assumed to arrive: `query_tree` on the root (lines 640-642), the
  `list_properties` on the root (lines 318-320), the `_NET_CLIENT_LIST`
  `get_property` (lines 683-685), `get_geometry` for an overlay
  (lines 1044-1046), and the checked `create_window`/`map_window` requests
  (lines 900 and 906). So are the `query_text_extents` reply requested on
  every draw (lines 491-492) and the checked `create_gc` requests of each
  overlay (lines 923-924 and 941-942), so a draw never fails in the model.
  The source exits with status 70 when one is missing;
  the model's `RequestFailed` covers only the per-window replies the filter
  asks for.
- Keysyms.ParseCharacters: `CHARACTERS` is a string of Unicode characters
  here, while the source walks the argument's C `char` bytes. Every
  accepted character is ASCII, so accepted alphabets agree; for a non-ASCII
  argument the source reports its first byte outside `[0-9a-z]`, and the
  model the first such character.

=== FILE: base.dfy ===
/**
 * Shared vocabulary of the model: the X identifiers the program handles,
 * an Option/Result pair for error paths, and the `min`/`max` utilities.
 */
module Base {

  /** An X window identifier (`xcb_window_t`, a 32-bit unsigned value). */
  type Window = w: nat | w <= 0xffff_ffff

  /** An X keysym (`xcb_keysym_t`, a 32-bit unsigned value). */
  type Keysym = k: nat | k <= 0xffff_ffff

  datatype Option<+T> = None | Some(value: T)

  datatype Result<+T, +E> = Ok(value: T) | Err(error: E)

  /**
   * Reasons the command line is rejected (`argp_error`, or `xcw_fail` with
   * `EX_USAGE`); every one of them ends the process with status 64.
   */
  datatype UsageError =
    | UnknownCharacter(c: char)
    | TooFewCharacters
    | InvalidWindowId
    | InvalidFormat(value: string)
    | MissingCharacters
    | UnexpectedArgument(value: string)

  /** The smaller of two numbers (`min`). */
  function Min(a: int, b: int): (r: int)
    ensures r <= a && r <= b
    ensures r == a || r == b
  {
    if a < b then a else b
  }

  /** The larger of two numbers (`max`). */
  function Max(a: int, b: int): (r: int)
    ensures r >= a && r >= b
    ensures r == a || r == b
  {
    if a < b then b else a
  }
}

=== FILE: cli.dfy ===
/**
 * Command-line values: the window-ID and output-format options, the option
 * dispatch of `parse_arg`/`parse_args`, and the printing of the chosen window.
 */
module Cli {
  import opened Base
  import opened Keysyms

  /** Output format (`FORMAT_DEC` is 0, `FORMAT_HEX` is 1). */
  datatype Format = Decimal | Hexadecimal

  /**
   * What `strtol` left behind for a window-ID option: whether it set `errno`,
   * and the `long` value it returned. Number parsing itself is not modelled.
   */
  datatype Parsed = Parsed(errnoSet: bool, value: int)

  /** One key delivered by argp to `parse_arg`, in delivery order. */
  datatype Arg =
    | BlacklistArg(id: Parsed)
    | WhitelistArg(id: Parsed)
    | FormatArg(name: string)
    | FontSizeArg(size: int)      // the value `atoi` produced
    | FontPathArg(path: string)
    | Positional(text: string)

  /**
   * `xcw_input_t` while options are being parsed; `ksl` is None until the
   * `CHARACTERS` argument has been compiled. `positionals` is argp's
   * `arg_num`.
   */
  datatype Input = Input(
    ksl: Option<seq<LookupEntry>>,
    blacklist: seq<Window>,
    whitelist: seq<Window>,
    format: Format,
    fontSize: int,
    fontPath: Option<string>,
    positionals: nat)

  /** The validated input `parse_args` hands to the rest of the program. */
  datatype Config = Config(
    ksl: seq<LookupEntry>,
    blacklist: seq<Window>,
    whitelist: seq<Window>,
    format: Format,
    fontSize: int,
    fontPath: Option<string>)

  /** The input before any option: zero-initialised, so the format is decimal. */
  const InitialInput: Input := Input(None, [], [], Decimal, 0, None, 0)

  /** A window ID is accepted when `strtol` raised no error and the value is a non-zero 32-bit unsigned number. */
  predicate ValidWindowId(p: Parsed) {
    !p.errnoSet && 0 < p.value <= 0xffff_ffff
  }

  /**
   * `parse_arg_window_list`: check the parsed value and append it to the list.
   */
  function ParseWindowList(windows: seq<Window>, p: Parsed): (r: Result<seq<Window>, UsageError>)
    ensures r.Ok? <==> ValidWindowId(p)
    ensures r.Err? ==> r.error == InvalidWindowId
    ensures r.Ok? ==> |r.value| == |windows| + 1 && r.value[..|windows|] == windows
    ensures r.Ok? ==> r.value[|windows|] == p.value && r.value[|windows|] != 0
  {
    if ValidWindowId(p) then Ok(windows + [p.value]) else Err(InvalidWindowId)
  }

  /** `parse_arg_format`: exactly "decimal" or "hexadecimal". */
  function ParseFormat(name: string): (r: Result<Format, UsageError>)
    ensures r == Ok(Decimal) <==> name == "decimal"
    ensures r == Ok(Hexadecimal) <==> name == "hexadecimal"
    ensures r.Err? <==> name != "decimal" && name != "hexadecimal"
    ensures r.Err? ==> r.error == InvalidFormat(name)
  {
    if name == "decimal" then Ok(Decimal)
    else if name == "hexadecimal" then Ok(Hexadecimal)
    else Err(InvalidFormat(name))
  }

  // -- what the command line means, argument by argument

  /**
   * The usage error an argument raises, or None when it is accepted;
   * `seen` says whether `CHARACTERS` came before it (argp hands `parse_arg`
   * a second positional argument, which it does not know).
   */
  function Refusal(arg: Arg, seen: bool): Option<UsageError> {
    match arg
    case BlacklistArg(p) => if ValidWindowId(p) then None else Some(InvalidWindowId)
    case WhitelistArg(p) => if ValidWindowId(p) then None else Some(InvalidWindowId)
    case FormatArg(name) => if ParseFormat(name).Ok? then None else Some(InvalidFormat(name))
    case FontSizeArg(_) => None
    case FontPathArg(_) => None
    case Positional(text) =>
      if seen then Some(UnexpectedArgument(text))
      else if ParseCharacters(text).Ok? then None
      else Some(ParseCharacters(text).error)
  }

  /** The refusal of the first refused argument, if any. */
  function FirstRefusal(args: seq<Arg>, seen: bool): Option<UsageError>
    decreases |args|
  {
    if |args| == 0 then None
    else if Refusal(args[0], seen).Some? then Refusal(args[0], seen)
    else FirstRefusal(args[1..], seen || args[0].Positional?)
  }

  /** Whether a positional argument occurs among the first `i` arguments, or `seen`. */
  predicate SeenAt(seen: bool, args: seq<Arg>, i: nat)
    requires i <= |args|
  {
    seen || exists j :: 0 <= j < i && args[j].Positional?
  }

  /** The texts of the positional arguments, in order. */
  function Positionals(args: seq<Arg>): seq<string>
    decreases |args|
  {
    if |args| == 0 then []
    else (if args[0].Positional? then [args[0].text] else []) + Positionals(args[1..])
  }

  /** The values of the `--blacklist` options, in order. */
  function BlacklistIds(args: seq<Arg>): seq<int>
    decreases |args|
  {
    if |args| == 0 then []
    else (if args[0].BlacklistArg? then [args[0].id.value] else []) + BlacklistIds(args[1..])
  }

  /** The values of the `--whitelist` options, in order. */
  function WhitelistIds(args: seq<Arg>): seq<int>
    decreases |args|
  {
    if |args| == 0 then []
    else (if args[0].WhitelistArg? then [args[0].id.value] else []) + WhitelistIds(args[1..])
  }

  /** The value of the last `--format` option. */
  function LastFormat(args: seq<Arg>): Option<string>
    decreases |args|
  {
    if |args| == 0 then None
    else if LastFormat(args[1..]).Some? then LastFormat(args[1..])
    else if args[0].FormatArg? then Some(args[0].name)
    else None
  }

  /** The value of the last `--font-size` option. */
  function LastFontSize(args: seq<Arg>): Option<int>
    decreases |args|
  {
    if |args| == 0 then None
    else if LastFontSize(args[1..]).Some? then LastFontSize(args[1..])
    else if args[0].FontSizeArg? then Some(args[0].size)
    else None
  }

  /** The value of the last `--font-path` option. */
  function LastFontPath(args: seq<Arg>): Option<string>
    decreases |args|
  {
    if |args| == 0 then None
    else if LastFontPath(args[1..]).Some? then LastFontPath(args[1..])
    else if args[0].FontPathArg? then Some(args[0].path)
    else None
  }

  // -- the code

  /**
   * `parse_arg`: apply one key to the input being built. A refused key is
   * the error; an accepted one appends to its list, replaces its setting, or
   * compiles the alphabet, and leaves every other field alone.
   */
  function ApplyArg(input: Input, arg: Arg): (r: Result<Input, UsageError>)
    ensures r.Err? <==> Refusal(arg, input.positionals > 0).Some?
    ensures r.Err? ==> Some(r.error) == Refusal(arg, input.positionals > 0)
    ensures r.Ok? ==> r.value.blacklist == input.blacklist + (if arg.BlacklistArg? then [arg.id.value] else [])
    ensures r.Ok? ==> r.value.whitelist == input.whitelist + (if arg.WhitelistArg? then [arg.id.value] else [])
    ensures r.Ok? ==> if arg.FormatArg? then ParseFormat(arg.name) == Ok(r.value.format) else r.value.format == input.format
    ensures r.Ok? ==> r.value.fontSize == if arg.FontSizeArg? then arg.size else input.fontSize
    ensures r.Ok? ==> r.value.fontPath == if arg.FontPathArg? then Some(arg.path) else input.fontPath
    ensures r.Ok? ==> if arg.Positional?
      then input.positionals == 0 && r.value.positionals == 1 && r.value.ksl.Some? && ParseCharacters(arg.text) == Ok(r.value.ksl.value)
      else r.value.positionals == input.positionals && r.value.ksl == input.ksl
  {
    match arg
    case BlacklistArg(p) =>
      (match ParseWindowList(input.blacklist, p)
       case Ok(l) => Ok(input.(blacklist := l))
       case Err(e) => Err(e))
    case WhitelistArg(p) =>
      (match ParseWindowList(input.whitelist, p)
       case Ok(l) => Ok(input.(whitelist := l))
       case Err(e) => Err(e))
    case FormatArg(name) =>
      (match ParseFormat(name)
       case Ok(f) => Ok(input.(format := f))
       case Err(e) => Err(e))
    case FontSizeArg(size) => Ok(input.(fontSize := size))
    case FontPathArg(path) => Ok(input.(fontPath := Some(path)))
    case Positional(text) =>
      if input.positionals == 0 then
        match ParseCharacters(text)
        case Ok(ksl) => Ok(input.(ksl := Some(ksl), positionals := 1))
        case Err(e) => Err(e)
      else Err(UnexpectedArgument(text))
  }

  /**
   * What applying `args` to `input` yields: the first refused key's error;
   * otherwise the lists gain the option values in order, each setting takes
   * its last value, and `CHARACTERS` is compiled if it is given once.
   */
  predicate Applied(input: Input, args: seq<Arg>, r: Result<Input, UsageError>) {
    && AppliedVerdict(input, args, r)
    && (r.Ok? ==> AppliedLists(input, args, r.value))
    && (r.Ok? ==> AppliedSettings(input, args, r.value))
    && (r.Ok? ==> AppliedCharacters(input, args, r.value))
  }

  predicate AppliedVerdict(input: Input, args: seq<Arg>, r: Result<Input, UsageError>) {
    && (r.Err? <==> FirstRefusal(args, input.positionals > 0).Some?)
    && (r.Err? ==> Some(r.error) == FirstRefusal(args, input.positionals > 0))
  }

  predicate AppliedLists(input: Input, args: seq<Arg>, out: Input) {
    && out.blacklist == input.blacklist + BlacklistIds(args)
    && out.whitelist == input.whitelist + WhitelistIds(args)
  }

  predicate AppliedSettings(input: Input, args: seq<Arg>, out: Input) {
    && (match LastFormat(args)
        case None => out.format == input.format
        case Some(name) => ParseFormat(name) == Ok(out.format))
    && out.fontSize == (match LastFontSize(args) case None => input.fontSize case Some(size) => size)
    && out.fontPath == (match LastFontPath(args) case None => input.fontPath case Some(path) => Some(path))
  }

  predicate AppliedCharacters(input: Input, args: seq<Arg>, out: Input) {
    && (input.positionals > 0 ==>
         |Positionals(args)| == 0 && out.ksl == input.ksl && out.positionals == input.positionals)
    && (input.positionals == 0 ==>
         && |Positionals(args)| <= 1
         && out.positionals == |Positionals(args)|
         && (|Positionals(args)| == 0 ==> out.ksl == input.ksl)
         && (|Positionals(args)| == 1 ==> out.ksl.Some? && ParseCharacters(Positionals(args)[0]) == Ok(out.ksl.value)))
  }

  /** Apply every key in order; the first refused key ends parsing. */
  function ApplyArgs(input: Input, args: seq<Arg>): (r: Result<Input, UsageError>)
    ensures Applied(input, args, r)
    decreases |args|
  {
    if |args| == 0 then Ok(input)
    else
      match ApplyArg(input, args[0])
      case Ok(next) =>
        var r := ApplyArgs(next, args[1..]);
        AppliedStep(input, next, args, r);
        r
      case Err(e) => Err(e)
  }

  /** One accepted key followed by the rest is the whole. */
  lemma AppliedStep(input: Input, next: Input, args: seq<Arg>, r: Result<Input, UsageError>)
    requires |args| >= 1 && ApplyArg(input, args[0]) == Ok(next)
    requires Applied(next, args[1..], r)
    ensures Applied(input, args, r)
  {
    assert FirstRefusal(args, input.positionals > 0) == FirstRefusal(args[1..], next.positionals > 0);
    if r.Ok? {
      ListsStep(input, next, args, r.value);
      SettingsStep(input, next, args, r.value);
      CharactersStep(input, next, args, r.value);
    }
  }

  lemma ListsStep(input: Input, next: Input, args: seq<Arg>, out: Input)
    requires |args| >= 1
    requires next.blacklist == input.blacklist + (if args[0].BlacklistArg? then [args[0].id.value] else [])
    requires next.whitelist == input.whitelist + (if args[0].WhitelistArg? then [args[0].id.value] else [])
    requires AppliedLists(next, args[1..], out)
    ensures AppliedLists(input, args, out)
  {
    var a, rest := args[0], args[1..];
    if a.BlacklistArg? {
      assert BlacklistIds(args) == [a.id.value] + BlacklistIds(rest);
      assert input.blacklist + [a.id.value] + BlacklistIds(rest) == input.blacklist + ([a.id.value] + BlacklistIds(rest));
    } else if a.WhitelistArg? {
      assert WhitelistIds(args) == [a.id.value] + WhitelistIds(rest);
      assert input.whitelist + [a.id.value] + WhitelistIds(rest) == input.whitelist + ([a.id.value] + WhitelistIds(rest));
    } else {
      assert input.blacklist + [] == input.blacklist;
      assert input.whitelist + [] == input.whitelist;
    }
  }

  lemma SettingsStep(input: Input, next: Input, args: seq<Arg>, out: Input)
    requires |args| >= 1 && ApplyArg(input, args[0]) == Ok(next)
    requires AppliedSettings(next, args[1..], out)
    ensures AppliedSettings(input, args, out)
  {
  }

  lemma CharactersStep(input: Input, next: Input, args: seq<Arg>, out: Input)
    requires |args| >= 1 && ApplyArg(input, args[0]) == Ok(next)
    requires FirstRefusal(args[1..], next.positionals > 0).None?
    requires AppliedCharacters(next, args[1..], out)
    ensures AppliedCharacters(input, args, out)
  {
    var a, rest := args[0], args[1..];
    if a.Positional? {
      assert Positionals(args) == [a.text] + Positionals(rest);
    } else {
      assert Positionals(args) == Positionals(rest);
    }
  }

  /**
   * `parse_args`: all keys, then the check that `CHARACTERS` was given.
   * The command line is accepted exactly when no argument is refused and
   * `CHARACTERS` is given; the first refused argument's error is reported,
   * and a missing `CHARACTERS` after that. An accepted command line yields
   * the compiled `CHARACTERS`, the listed IDs in order, and the last value
   * of each setting (decimal output when `--format` is absent).
   */
  function ParseArgs(args: seq<Arg>): (r: Result<Config, UsageError>)
    ensures r.Ok? <==> FirstRefusal(args, false).None? && |Positionals(args)| >= 1
    ensures FirstRefusal(args, false).Some? ==> r == Err(FirstRefusal(args, false).value)
    ensures FirstRefusal(args, false).None? && |Positionals(args)| == 0 ==> r == Err(MissingCharacters)
    ensures r.Ok? ==> |Positionals(args)| == 1 && ParseCharacters(Positionals(args)[0]) == Ok(r.value.ksl)
    ensures r.Ok? ==> r.value.blacklist == BlacklistIds(args) && r.value.whitelist == WhitelistIds(args)
    ensures r.Ok? ==> match LastFormat(args)
      case None => r.value.format == Decimal
      case Some(name) => ParseFormat(name) == Ok(r.value.format)
    ensures r.Ok? ==> r.value.fontSize == match LastFontSize(args) case None => 0 case Some(size) => size
    ensures r.Ok? ==> r.value.fontPath == LastFontPath(args)
    ensures r.Ok? ==> ValidAlphabet(r.value.ksl) && |r.value.ksl| >= 2
    ensures r.Ok? ==> forall w :: w in r.value.blacklist ==> w != 0
    ensures r.Ok? ==> forall w :: w in r.value.whitelist ==> w != 0
  {
    ApplyArgsInvariant(InitialInput, args);
    match ApplyArgs(InitialInput, args)
    case Err(e) => Err(e)
    case Ok(input) =>
      match input.ksl
      case None => Err(MissingCharacters)
      case Some(ksl) => Ok(Config(ksl, input.blacklist, input.whitelist, input.format, input.fontSize, input.fontPath))
  }

  /** What every reachable input satisfies. */
  predicate WellParsed(input: Input) {
    && (input.ksl.Some? <==> input.positionals > 0)
    && (input.ksl.Some? ==> ValidAlphabet(input.ksl.value) && |input.ksl.value| >= 2)
    && (forall w :: w in input.blacklist ==> w != 0)
    && (forall w :: w in input.whitelist ==> w != 0)
  }

  lemma {:induction false} ApplyArgsInvariant(input: Input, args: seq<Arg>)
    requires WellParsed(input)
    ensures ApplyArgs(input, args).Ok? ==> WellParsed(ApplyArgs(input, args).value)
    decreases |args|
  {
    if |args| > 0 {
      var r := ApplyArg(input, args[0]);
      if r.Ok? {
        assert WellParsed(r.value);
        ApplyArgsInvariant(r.value, args[1..]);
      }
    }
  }

  /**
   * `FirstRefusal` is the refusal of the first argument refused in its
   * place: none is refused exactly when it is None, and otherwise it is the
   * error of an argument before which every argument is accepted.
   */
  lemma {:induction false} FirstRefusalIsFirst(args: seq<Arg>, seen: bool)
    ensures FirstRefusal(args, seen).None? <==>
      forall i :: 0 <= i < |args| ==> Refusal(args[i], SeenAt(seen, args, i)).None?
    ensures FirstRefusal(args, seen).Some? ==>
      exists i :: (0 <= i < |args|
        && Refusal(args[i], SeenAt(seen, args, i)) == FirstRefusal(args, seen)
        && forall j :: 0 <= j < i ==> Refusal(args[j], SeenAt(seen, args, j)).None?)
    decreases |args|
  {
    if |args| > 0 {
      var seen' := seen || args[0].Positional?;
      var rest := args[1..];
      FirstRefusalIsFirst(rest, seen');
      assert SeenAt(seen, args, 0) == seen;
      forall i | 1 <= i <= |args|
        ensures SeenAt(seen, args, i) == SeenAt(seen', rest, i - 1)
      {
        SeenShift(seen, args, i);
      }
      if Refusal(args[0], seen).None? {
        if FirstRefusal(rest, seen').Some? {
          var k :| 0 <= k < |rest| && Refusal(rest[k], SeenAt(seen', rest, k)) == FirstRefusal(rest, seen')
            && forall j :: 0 <= j < k ==> Refusal(rest[j], SeenAt(seen', rest, j)).None?;
          assert rest[k] == args[k + 1];
          forall j | 0 <= j < k + 1 ensures Refusal(args[j], SeenAt(seen, args, j)).None? {
            if j > 0 { assert rest[j - 1] == args[j]; }
          }
        } else {
          forall i | 0 <= i < |args| ensures Refusal(args[i], SeenAt(seen, args, i)).None? {
            if i > 0 { assert rest[i - 1] == args[i]; }
          }
        }
      }
    }
  }

  lemma SeenShift(seen: bool, args: seq<Arg>, i: nat)
    requires 1 <= i <= |args|
    ensures SeenAt(seen, args, i) == SeenAt(seen || args[0].Positional?, args[1..], i - 1)
  {
    if SeenAt(seen, args, i) && !seen && !args[0].Positional? {
      var j :| 0 <= j < i && args[j].Positional?;
      assert args[1..][j - 1] == args[j];
    }
    if SeenAt(seen || args[0].Positional?, args[1..], i - 1) && !seen && !args[0].Positional? {
      var j :| 0 <= j < i - 1 && args[1..][j].Positional?;
      assert args[j + 1] == args[1..][j];
    }
  }

  // -- output

  /** Digit characters for bases up to 16, lower-case as `%x` prints them. */
  const DigitChars: string := "0123456789abcdef"

  /** The digits of `n` in base `b`, most significant first, without leading zeros. */
  function Digits(n: nat, b: nat): (s: string)
    requires b == 10 || b == 16
    ensures |s| >= 1 && s[0] in DigitChars
    ensures n > 0 ==> s[0] != '0'
    decreases n
  {
    if n < b then [DigitChars[n]]
    else
      DivModBase(n, b);
      Digits(n / b, b) + [DigitChars[n % b]]
  }

  /** The value of a digit character, if it is one below base `b`. */
  function DigitValue(c: char, b: nat): Option<nat>
    requires b <= 16
  {
    if '0' <= c <= '9' && (c as int - '0' as int) < b then Some(c as int - '0' as int)
    else if 'a' <= c <= 'f' && (c as int - 'a' as int + 10) < b then Some(c as int - 'a' as int + 10)
    else None
  }

  /** Read a digit string in base `b` (the reading a consumer of the output performs). */
  function ReadDigits(s: string, b: nat): Option<nat>
    requires b <= 16
  {
    if |s| == 0 then None
    else
      var last := DigitValue(s[|s| - 1], b);
      if last.None? then None
      else if |s| == 1 then last
      else
        match ReadDigits(s[..|s| - 1], b)
        case None => None
        case Some(v) => Some(v * b + last.value)
  }

  lemma DigitCharValue(k: nat, b: nat)
    requires b == 10 || b == 16
    requires k < b
    ensures DigitValue(DigitChars[k], b) == Some(k)
  {
  }

  lemma {:induction false} DigitsRoundTrip(n: nat, b: nat)
    requires b == 10 || b == 16
    ensures ReadDigits(Digits(n, b), b) == Some(n)
    decreases n
  {
    if n < b {
      DigitCharValue(n, b);
    } else {
      DigitsRoundTrip(n / b, b);
      DigitsStep(n, b);
    }
  }

  lemma DigitsStep(n: nat, b: nat)
    requires b == 10 || b == 16
    requires n >= b
    requires ReadDigits(Digits(n / b, b), b) == Some(n / b)
    ensures ReadDigits(Digits(n, b), b) == Some(n)
  {
    var q, m := n / b, n % b;
    DivModBase(n, b);
    DigitsUnfold(n, b);
    DigitCharValue(m, b);
    SnocValue(Digits(q, b), DigitChars[m], b, q, m, n);
  }

  lemma SnocValue(s: string, c: char, b: nat, q: nat, m: nat, n: nat)
    requires b <= 16 && |s| >= 1
    requires ReadDigits(s, b) == Some(q) && DigitValue(c, b) == Some(m)
    requires q * b + m == n
    ensures ReadDigits(s + [c], b) == Some(n)
  {
    ReadDigitsSnoc(s, c, b);
  }

  lemma DigitsUnfold(n: nat, b: nat)
    requires b == 10 || b == 16
    requires n >= b
    ensures n % b < 16 && Digits(n, b) == Digits(n / b, b) + [DigitChars[n % b]]
  {
    DivModBase(n, b);
  }

  /** Appending a digit multiplies the value read so far by the base and adds the digit. */
  lemma ReadDigitsSnoc(s: string, c: char, b: nat)
    requires b <= 16 && |s| >= 1
    requires ReadDigits(s, b).Some? && DigitValue(c, b).Some?
    ensures ReadDigits(s + [c], b) == Some(ReadDigits(s, b).value * b + DigitValue(c, b).value)
  {
    var t := s + [c];
    assert t[..|t| - 1] == s;
    assert t[|t| - 1] == c;
  }

  lemma DivModBase(n: nat, b: nat)
    requires b == 10 || b == 16
    ensures (n / b) * b + n % b == n && 0 <= n % b < b
  {
    if b == 10 { assert n == (n / 10) * 10 + n % 10; } else { assert n == (n / 16) * 16 + n % 16; }
  }

  /** `%d` applied to an `xcb_window_t`: the bits are read as a signed 32-bit `int`. */
  function AsSignedInt(w: Window): (v: int)
    ensures -0x8000_0000 <= v < 0x8000_0000
    ensures v % 0x1_0000_0000 == w
  {
    if w < 0x8000_0000 then w else w - 0x1_0000_0000
  }

  /** `printf("%d", v)`. */
  function DecimalText(v: int): string
  {
    if v < 0 then "-" + Digits(-v, 10) else Digits(v, 10)
  }

  /** `choose_window`: the line printed for the chosen window. */
  function ChooseWindow(format: Format, w: Window): (out: string)
    ensures |out| >= 2 && out[|out| - 1] == '\n'
    ensures format == Hexadecimal ==> out[..2] == "0x"
    ensures format == Decimal && w < 0x8000_0000 ==> out == Digits(w, 10) + "\n"
    ensures format == Decimal && w >= 0x8000_0000 ==> out == "-" + Digits(0x1_0000_0000 - w, 10) + "\n"
  {
    match format
    case Decimal => DecimalText(AsSignedInt(w)) + "\n"
    case Hexadecimal => "0x" + Digits(w, 16) + "\n"
  }

  /**
   * How a consumer of the output recovers the window: strip the newline and
   * read the number as a 32-bit value — in decimal an optional `-` (a value
   * `-v` with `0 < v <= 2^31` standing for `2^32 - v`), in hex a `0x` prefix.
   */
  function ReadWindow(format: Format, out: string): Option<Window>
  {
    if |out| == 0 || out[|out| - 1] != '\n' then None
    else
      var body := out[..|out| - 1];
      match format
      case Decimal =>
        if |body| > 0 && body[0] == '-' then
          (match ReadDigits(body[1..], 10)
           case Some(v) => if 0 < v <= 0x8000_0000 then Some(0x1_0000_0000 - v) else None
           case None => None)
        else
          (match ReadDigits(body, 10)
           case Some(v) => if v <= 0xffff_ffff then Some(v) else None
           case None => None)
      case Hexadecimal =>
        if |body| < 2 || body[..2] != "0x" then None
        else
          match ReadDigits(body[2..], 16)
          case Some(v) => if v <= 0xffff_ffff then Some(v) else None
          case None => None
  }

  /** The printed line identifies the chosen window in either format. */
  lemma ChooseWindowRoundTrip(format: Format, w: Window)
    ensures ReadWindow(format, ChooseWindow(format, w)) == Some(w)
  {
    var out := ChooseWindow(format, w);
    assert out[..|out| - 1] == ChooseWindow(format, w)[..|out| - 1];
    match format
    case Decimal =>
      if w < 0x8000_0000 {
        DecimalRoundTripLow(w);
      } else {
        DecimalRoundTripHigh(w);
      }
    case Hexadecimal =>
      var body := out[..|out| - 1];
      assert body == "0x" + Digits(w, 16);
      assert body[2..] == Digits(w, 16);
      DigitsRoundTrip(w, 16);
  }

  lemma DecimalRoundTripLow(w: Window)
    requires w < 0x8000_0000
    ensures ReadWindow(Decimal, ChooseWindow(Decimal, w)) == Some(w)
  {
    var out := ChooseWindow(Decimal, w);
    var body := out[..|out| - 1];
    assert body == Digits(w, 10);
    DigitsRoundTrip(w, 10);
  }

  lemma DecimalRoundTripHigh(w: Window)
    requires w >= 0x8000_0000
    ensures ReadWindow(Decimal, ChooseWindow(Decimal, w)) == Some(w)
  {
    var m: nat := 0x1_0000_0000 - w;
    assert AsSignedInt(w) == -(m as int);
    assert ChooseWindow(Decimal, w) == "-" + Digits(m, 10) + "\n";
    DigitsRoundTrip(m, 10);
    ReadNegative(Digits(m, 10), m);
  }

  /** Reading a line holding a minus sign and digits wraps the negated value modulo 2^32. */
  lemma ReadNegative(ds: string, m: nat)
    requires 0 < m <= 0x8000_0000
    requires ReadDigits(ds, 10) == Some(m)
    ensures ReadWindow(Decimal, "-" + ds + "\n") == Some(0x1_0000_0000 - m)
  {
    var out := "-" + ds + "\n";
    var body := out[..|out| - 1];
    assert body == "-" + ds;
    assert body[0] == '-' && body[1..] == ds;
  }
}

=== FILE: keysyms.dfy ===
/**
 * The keysym lookup: the fixed table of characters a user may type, the two
 * linear searches over a lookup (by character and by keysym), and the
 * compilation of the `CHARACTERS` argument into the user's alphabet.
 */
module Keysyms {
  import opened Base

  /** One row of a keysym lookup (`keysyms_lookup_t`). */
  datatype LookupEntry = LookupEntry(character: char, keysym: Keysym)

  /**
   * `ALL_KEYSYMS_LOOKUP`: the only characters accepted as input, the digits
   * and the lower-case letters, each with the keysym X assigns it.
   */
  const AllKeysymsLookup: seq<LookupEntry> := [
    LookupEntry('0', 0x0030), LookupEntry('1', 0x0031), LookupEntry('2', 0x0032), LookupEntry('3', 0x0033),
    LookupEntry('4', 0x0034), LookupEntry('5', 0x0035), LookupEntry('6', 0x0036), LookupEntry('7', 0x0037),
    LookupEntry('8', 0x0038), LookupEntry('9', 0x0039), LookupEntry('a', 0x0061), LookupEntry('b', 0x0062),
    LookupEntry('c', 0x0063), LookupEntry('d', 0x0064), LookupEntry('e', 0x0065), LookupEntry('f', 0x0066),
    LookupEntry('g', 0x0067), LookupEntry('h', 0x0068), LookupEntry('i', 0x0069), LookupEntry('j', 0x006a),
    LookupEntry('k', 0x006b), LookupEntry('l', 0x006c), LookupEntry('m', 0x006d), LookupEntry('n', 0x006e),
    LookupEntry('o', 0x006f), LookupEntry('p', 0x0070), LookupEntry('q', 0x0071), LookupEntry('r', 0x0072),
    LookupEntry('s', 0x0073), LookupEntry('t', 0x0074), LookupEntry('u', 0x0075), LookupEntry('v', 0x0076),
    LookupEntry('w', 0x0077), LookupEntry('x', 0x0078), LookupEntry('y', 0x0079), LookupEntry('z', 0x007a)
  ]

  /** A character the program accepts in `CHARACTERS`: `[0-9a-z]`. */
  predicate IsInputChar(c: char) {
    '0' <= c <= '9' || 'a' <= c <= 'z'
  }

  /** The lookup entry of an input character: its keysym is its ASCII code. */
  function EntryOf(c: char): LookupEntry
  {
    LookupEntry(c, c as int)
  }

  /** The characters of a lookup, in lookup order. */
  function CharsOf(ksl: seq<LookupEntry>): (cs: string)
    ensures |cs| == |ksl|
    ensures forall i :: 0 <= i < |ksl| ==> cs[i] == ksl[i].character
  {
    seq(|ksl|, i requires 0 <= i < |ksl| => ksl[i].character)
  }

  /** No character occurs twice in `s`. */
  predicate Distinct(s: string) {
    forall i, j :: 0 <= i < j < |s| ==> s[i] != s[j]
  }

  /** A lookup the user's alphabet may be: distinct input characters, each with its own keysym. */
  predicate ValidAlphabet(ksl: seq<LookupEntry>) {
    && Distinct(CharsOf(ksl))
    && forall i :: 0 <= i < |ksl| ==> IsInputChar(ksl[i].character) && ksl[i] == EntryOf(ksl[i].character)
  }

  // -- searches

  /**
   * `keysyms_lookup_find_char`: the index of the first entry whose character
   * is `c`, or None when no entry has it.
   */
  function FindChar(ksl: seq<LookupEntry>, c: char): (r: Option<nat>)
    ensures r.Some? ==> r.value < |ksl| && ksl[r.value].character == c
    ensures r.Some? ==> forall j :: 0 <= j < r.value ==> ksl[j].character != c
    ensures r.None? <==> forall j :: 0 <= j < |ksl| ==> ksl[j].character != c
  {
    FindCharFrom(ksl, c, 0)
  }

  function FindCharFrom(ksl: seq<LookupEntry>, c: char, i: nat): (r: Option<nat>)
    requires i <= |ksl|
    ensures r.Some? ==> i <= r.value < |ksl| && ksl[r.value].character == c
    ensures r.Some? ==> forall j :: i <= j < r.value ==> ksl[j].character != c
    ensures r.None? <==> forall j :: i <= j < |ksl| ==> ksl[j].character != c
    decreases |ksl| - i
  {
    if i == |ksl| then None
    else if ksl[i].character == c then Some(i)
    else FindCharFrom(ksl, c, i + 1)
  }

  /**
   * `keysyms_lookup_find_keysym`: the index of the first entry whose keysym
   * is `k`, or None when no entry has it.
   */
  function FindKeysym(ksl: seq<LookupEntry>, k: Keysym): (r: Option<nat>)
    ensures r.Some? ==> r.value < |ksl| && ksl[r.value].keysym == k
    ensures r.Some? ==> forall j :: 0 <= j < r.value ==> ksl[j].keysym != k
    ensures r.None? <==> forall j :: 0 <= j < |ksl| ==> ksl[j].keysym != k
  {
    FindKeysymFrom(ksl, k, 0)
  }

  function FindKeysymFrom(ksl: seq<LookupEntry>, k: Keysym, i: nat): (r: Option<nat>)
    requires i <= |ksl|
    ensures r.Some? ==> i <= r.value < |ksl| && ksl[r.value].keysym == k
    ensures r.Some? ==> forall j :: i <= j < r.value ==> ksl[j].keysym != k
    ensures r.None? <==> forall j :: i <= j < |ksl| ==> ksl[j].keysym != k
    decreases |ksl| - i
  {
    if i == |ksl| then None
    else if ksl[i].keysym == k then Some(i)
    else FindKeysymFrom(ksl, k, i + 1)
  }

  /** Position of an input character in `ALL_KEYSYMS_LOOKUP`. */
  function TableIndex(c: char): (i: nat)
    requires IsInputChar(c)
  {
    if c <= '9' then c as int - '0' as int else c as int - 'a' as int + 10
  }

  /** The table lists exactly `[0-9a-z]`, in that order, each character with its ASCII code. */
  lemma TableShape()
    ensures |AllKeysymsLookup| == 36
    ensures forall i :: 0 <= i < 36 ==> IsInputChar(AllKeysymsLookup[i].character)
    ensures forall i :: 0 <= i < 36 ==> AllKeysymsLookup[i] == EntryOf(AllKeysymsLookup[i].character)
    ensures forall i :: 0 <= i < 36 ==> AllKeysymsLookup[i].character as int == if i < 10 then 48 + i else 87 + i
  {
  }

  /** Searching the fixed table finds exactly the input characters, at their entry. */
  lemma FindCharInTable(c: char)
    ensures FindChar(AllKeysymsLookup, c).Some? <==> IsInputChar(c)
    ensures IsInputChar(c) ==> FindChar(AllKeysymsLookup, c) == Some(TableIndex(c))
    ensures IsInputChar(c) ==> AllKeysymsLookup[TableIndex(c)] == EntryOf(c)
  {
    TableShape();
    var r := FindChar(AllKeysymsLookup, c);
    if IsInputChar(c) {
      var k := TableIndex(c);
      assert AllKeysymsLookup[k].character == c;
      assert r.Some?;
      assert r.value == k by {
        assert AllKeysymsLookup[r.value].character as int == c as int;
      }
    }
  }

  /** In a lookup with distinct characters, the character search finds any entry by its character. */
  lemma FindCharDistinct(ksl: seq<LookupEntry>, i: nat)
    requires Distinct(CharsOf(ksl))
    requires i < |ksl|
    ensures FindChar(ksl, ksl[i].character) == Some(i)
  {
    forall j | 0 <= j < |ksl| && j != i
      ensures ksl[j].character != ksl[i].character
    {
      if j < i {
        assert CharsOf(ksl)[j] != CharsOf(ksl)[i];
      } else {
        assert CharsOf(ksl)[i] != CharsOf(ksl)[j];
      }
    }
  }

  /**
   * In a valid alphabet the two searches invert each other: the keysym of
   * any entry leads back to that entry, and so does its character.
   */
  lemma LookupInverts(ksl: seq<LookupEntry>, i: nat)
    requires ValidAlphabet(ksl)
    requires i < |ksl|
    ensures FindChar(ksl, ksl[i].character) == Some(i)
    ensures FindKeysym(ksl, ksl[i].keysym) == Some(i)
  {
    FindCharDistinct(ksl, i);
    forall j | 0 <= j < |ksl| && j != i
      ensures ksl[j].keysym != ksl[i].keysym
    {
      assert ksl[j] == EntryOf(ksl[j].character);
      assert ksl[i] == EntryOf(ksl[i].character);
    }
  }

  // -- compiling the CHARACTERS argument

  /** The characters of `s` without repeats, each at its first occurrence. */
  function Dedup(s: string): string
  {
    if |s| == 0 then []
    else
      var d := Dedup(s[..|s| - 1]);
      if s[|s| - 1] in d then d else d + [s[|s| - 1]]
  }

  lemma {:induction false} DedupFacts(s: string)
    ensures Distinct(Dedup(s))
    ensures forall c :: c in Dedup(s) <==> c in s
  {
    if |s| > 0 {
      var init := s[..|s| - 1];
      DedupFacts(init);
      assert s == init + [s[|s| - 1]];
    }
  }

  /** The lookup built from distinct input characters. */
  function EntriesOf(cs: string): (ksl: seq<LookupEntry>)
    ensures |ksl| == |cs|
    ensures CharsOf(ksl) == cs
    ensures forall i :: 0 <= i < |ksl| ==> ksl[i] == EntryOf(cs[i])
  {
    seq(|cs|, i requires 0 <= i < |cs| => EntryOf(cs[i]))
  }

  /** Every character of `pool` is accepted. */
  predicate AllInputChars(pool: string) {
    forall i :: 0 <= i < |pool| ==> IsInputChar(pool[i])
  }

  /** Index of the first character of `pool` outside `[0-9a-z]`. */
  function FirstUnknown(pool: string): (i: nat)
    requires !AllInputChars(pool)
    ensures i < |pool| && !IsInputChar(pool[i])
    ensures forall j :: 0 <= j < i ==> IsInputChar(pool[j])
  {
    if !IsInputChar(pool[0]) then 0
    else
      assert !AllInputChars(pool[1..]) by {
        var k :| 0 <= k < |pool| && !IsInputChar(pool[k]);
        assert pool[1..][k - 1] == pool[k];
      }
      1 + FirstUnknown(pool[1..])
  }

  /**
   * `parse_arg_characters`: compile `CHARACTERS` into the user's alphabet.
   * An unknown character is a usage error (the first one is reported);
   * repeated characters are dropped silently; fewer than two distinct
   * characters is a usage error.
   */
  function ParseCharacters(pool: string): (r: Result<seq<LookupEntry>, UsageError>)
    ensures r.Ok? <==> AllInputChars(pool) && |Dedup(pool)| >= 2
    ensures r.Ok? ==> CharsOf(r.value) == Dedup(pool) && ValidAlphabet(r.value)
    ensures !AllInputChars(pool) ==> r == Err(UnknownCharacter(pool[FirstUnknown(pool)]))
    ensures AllInputChars(pool) && |Dedup(pool)| < 2 ==> r == Err(TooFewCharacters)
  {
    CompileFromSpec(pool, 0, []);
    if AllInputChars(pool) then
      EntriesValid(pool);
      CompileFrom(pool, 0, [])
    else
      CompileFrom(pool, 0, [])
  }

  lemma EntriesValid(pool: string)
    requires AllInputChars(pool)
    ensures ValidAlphabet(EntriesOf(Dedup(pool)))
  {
    DedupFacts(pool);
    var d := Dedup(pool);
    var ksl := EntriesOf(d);
    forall i | 0 <= i < |ksl|
      ensures IsInputChar(ksl[i].character)
    {
      assert d[i] in pool;
    }
  }

  /** One iteration of the compiling loop per character, from index `i` on. */
  function CompileFrom(pool: string, i: nat, ksl: seq<LookupEntry>): Result<seq<LookupEntry>, UsageError>
    requires i <= |pool|
    decreases |pool| - i
  {
    if i == |pool| then
      if |ksl| < 2 then Err(TooFewCharacters) else Ok(ksl)
    else
      match FindChar(AllKeysymsLookup, pool[i])
      case None => Err(UnknownCharacter(pool[i]))
      case Some(j) =>
        var ksl' := if FindChar(ksl, pool[i]).None? then ksl + [AllKeysymsLookup[j]] else ksl;
        CompileFrom(pool, i + 1, ksl')
  }

  lemma {:induction false} CompileFromSpec(pool: string, i: nat, ksl: seq<LookupEntry>)
    requires i <= |pool|
    requires AllInputChars(pool[..i])
    requires ksl == EntriesOf(Dedup(pool[..i]))
    ensures var r := CompileFrom(pool, i, ksl);
      && (r.Ok? <==> AllInputChars(pool) && |Dedup(pool)| >= 2)
      && (r.Ok? ==> r.value == EntriesOf(Dedup(pool)))
      && (!AllInputChars(pool) ==> r == Err(UnknownCharacter(pool[FirstUnknown(pool)])))
      && (AllInputChars(pool) && |Dedup(pool)| < 2 ==> r == Err(TooFewCharacters))
    decreases |pool| - i
  {
    if i == |pool| {
      assert pool[..i] == pool;
    } else {
      var c := pool[i];
      FindCharInTable(c);
      if !IsInputChar(c) {
        UnknownAt(pool, i);
      } else {
        CompileStep(pool, i, ksl);
        var ksl' := if FindChar(ksl, c).None? then ksl + [AllKeysymsLookup[TableIndex(c)]] else ksl;
        CompileFromSpec(pool, i + 1, ksl');
      }
    }
  }

  lemma UnknownAt(pool: string, i: nat)
    requires i < |pool|
    requires AllInputChars(pool[..i]) && !IsInputChar(pool[i])
    ensures !AllInputChars(pool) && FirstUnknown(pool) == i
  {
    forall j | 0 <= j < i ensures IsInputChar(pool[j]) {
      assert pool[..i][j] == pool[j];
    }
  }

  /** One loop iteration on a known character keeps `ksl` equal to the entries of the distinct characters so far. */
  lemma CompileStep(pool: string, i: nat, ksl: seq<LookupEntry>)
    requires i < |pool|
    requires AllInputChars(pool[..i]) && IsInputChar(pool[i])
    requires ksl == EntriesOf(Dedup(pool[..i]))
    ensures AllInputChars(pool[..i + 1])
    ensures var c := pool[i];
      (if FindChar(ksl, c).None? then ksl + [AllKeysymsLookup[TableIndex(c)]] else ksl) == EntriesOf(Dedup(pool[..i + 1]))
  {
    var c := pool[i];
    FindCharInTable(c);
    var prefix := pool[..i + 1];
    assert prefix == pool[..i] + [c];
    assert prefix[..i] == pool[..i];
    forall k | 0 <= k < i + 1 ensures IsInputChar(prefix[k]) {
      if k < i { assert prefix[k] == pool[..i][k]; }
    }
    DedupFacts(pool[..i]);
    var d := Dedup(pool[..i]);
    assert Dedup(prefix) == if c in d then d else d + [c];
    assert FindChar(ksl, c).None? <==> c !in d by {
      assert CharsOf(ksl) == d;
      if c in d {
        var k :| 0 <= k < |d| && d[k] == c;
        assert ksl[k].character == c;
      }
    }
  }
}

=== FILE: label_tree.dfy ===
/**
 * The label tree (`window_setup_t` as built by `initialise_window_tracking`):
 * the selectable windows are split into a balanced tree whose fan-out is the
 * alphabet size K; every edge carries one alphabet character, the i-th child
 * of any node carrying the i-th character.
 */
module LabelTree {
  import opened Base

  /**
   * A node is either a window with the character that selects it, or a
   * character that descends into children — never both, never neither.
   */
  datatype Node = Leaf(ch: char, window: Window) | Internal(ch: char, children: seq<Node>)

  /** The windows under a node, left to right. */
  function NodeLeaves(n: Node): seq<Window>
    decreases n
  {
    match n
    case Leaf(_, w) => [w]
    case Internal(_, cs) => Leaves(cs)
  }

  /** The windows under a forest, left to right. */
  function Leaves(f: seq<Node>): seq<Window>
    decreases f
  {
    if |f| == 0 then [] else NodeLeaves(f[0]) + Leaves(f[1..])
  }

  lemma {:induction false} LeavesAppend(a: seq<Node>, b: seq<Node>)
    ensures Leaves(a + b) == Leaves(a) + Leaves(b)
    decreases |a|
  {
    if |a| == 0 {
      assert a + b == b;
    } else {
      assert (a + b)[0] == a[0];
      assert (a + b)[1..] == a[1..] + b;
      LeavesAppend(a[1..], b);
    }
  }

  // -- depth

  function Pow(k: nat, d: nat): nat
  {
    if d == 0 then 1 else k * Pow(k, d - 1)
  }

  lemma {:induction false} PowPositive(k: nat, d: nat)
    requires k >= 1
    ensures Pow(k, d) >= 1
  {
    if d > 0 {
      PowPositive(k, d - 1);
    }
  }

  /**
   * The exact integer floor-logarithm: the largest `d` with `k^d <= n`.
   * The source computes `(int)(log(n) / log(k))` in floating point.
   */
  function FloorLog(k: nat, n: nat): (d: nat)
    requires k >= 2 && n >= 1
    ensures Pow(k, d) <= n < Pow(k, d + 1)
    decreases n
  {
    if n < k then 0
    else
      DivBounds(n, k);
      var q := n / k;
      var d' := FloorLog(k, q);
      MulMonotone(k, Pow(k, d'), q);
      MulMonotone(k, q + 1, Pow(k, d' + 1));
      d' + 1
  }

  lemma MulMonotone(k: nat, a: nat, b: nat)
    requires a <= b
    ensures k * a <= k * b
  {
  }

  /** Integer division by `k` brackets `n` between `k * q` and `k * (q + 1)`. */
  lemma DivBounds(n: nat, k: nat)
    requires k >= 2 && n >= k
    ensures 1 <= n / k < n
    ensures k * (n / k) <= n < k * (n / k + 1)
  {
    var q, r := n / k, n % k;
    assert n == k * q + r;
    assert k * (q + 1) == k * q + k;
  }

  /**
   * `initialise_window_tracking`'s remaining depth for `n` windows and an
   * alphabet of `k` characters: floor-log of `max(n - 1, 1)`. With it a
   * level-`d` call never receives more than `k^(d+1)` windows, which is what
   * makes `ksl[i]` in bounds at depth 0; and it is the least such depth, as
   * one level less would not hold the windows.
   */
  function TreeDepth(n: nat, k: nat): (d: nat)
    requires k >= 2
    ensures Pow(k, d) <= Max(n - 1, 1) < Pow(k, d + 1)
    ensures n <= Pow(k, d + 1)
    ensures d > 0 ==> Pow(k, d) < n
  {
    var d := FloorLog(k, Max(n - 1, 1));
    PowPositive(k, d + 1);
    if d > 0 then
      PowPositive(k, d - 1);
      MulMonotone(k, 1, Pow(k, d - 1));
      d
    else d
  }

  // -- the builder

  /** Number of windows in bucket `i` of a level holding `m` windows. */
  function BucketSize(m: nat, k: nat, i: nat): nat
    requires k >= 1
  {
    if i < m % k then m / k + 1 else m / k
  }

  /** Size of bucket `i` of a level where `p = m div K` and `r = m mod K`. */
  function Bucket(p: nat, r: nat, i: nat): nat
  {
    if i < r then p + 1 else p
  }

  /** Windows still to be handed out once buckets `0..i-1` of a level of `n` buckets took theirs. */
  function Remaining(p: nat, r: nat, n: nat, i: nat): nat
    decreases n - i
  {
    if i >= n then 0 else Bucket(p, r, i) + Remaining(p, r, n, i + 1)
  }

  lemma {:induction false} RemainingClosed(p: nat, r: nat, n: nat, i: nat)
    requires i <= n && r <= n
    ensures Remaining(p, r, n, i) == (n - i) * p + (if i < r then r - i else 0)
    decreases n - i
  {
    if i < n {
      RemainingClosed(p, r, n, i + 1);
      assert (n - i) * p == (n - i - 1) * p + p;
    }
  }

  /**
   * `_initialise_window_tracking`: the nodes for `ws` with `depth` levels
   * still to go. At depth 0 each window becomes a leaf labelled with the
   * next alphabet character; otherwise the windows are split into buckets
   * (see `BuildLevel`).
   */
  function Build(alphabet: seq<char>, depth: nat, ws: seq<Window>): (f: seq<Node>)
    requires |alphabet| >= 2
    requires |ws| <= Pow(|alphabet|, depth + 1)
    ensures |f| == Min(|ws|, |alphabet|)
    ensures forall j :: 0 <= j < |f| ==> f[j].ch == alphabet[j]
    decreases depth, 1
  {
    var k := |alphabet|;
    if depth == 0 then
      assert Pow(k, 1) == k;
      seq(|ws|, i requires 0 <= i < |ws| => Leaf(alphabet[i], ws[i]))
    else
      var p, r := |ws| / k, |ws| % k;
      var n := if p > 0 then k else r;
      LevelFits(|ws|, k, Pow(k, depth));
      LevelWidth(|ws|, k);
      BuildLevel(alphabet, depth, p, r, n, 0, ws)
  }

  /** A level of `m <= k * cap` windows puts at most `cap` in any bucket, and its windows fill the buckets. */
  lemma LevelFits(m: nat, k: nat, cap: nat)
    requires k >= 2
    requires m <= k * cap
    ensures (if m % k > 0 then m / k + 1 else m / k) <= cap
    ensures m == Remaining(m / k, m % k, if m / k > 0 then k else m % k, 0)
  {
    var p, r := m / k, m % k;
    DivMod(m, k);
    BucketBound(k, p, r, cap);
    RemainingClosed(p, r, if p > 0 then k else r, 0);
  }

  lemma DivMod(m: nat, k: nat)
    requires k >= 1
    ensures m == k * (m / k) + m % k && 0 <= m % k < k
  {
  }

  lemma BucketBound(k: nat, p: nat, r: nat, cap: nat)
    requires k >= 1 && r < k
    requires k * p + r <= k * cap
    ensures (if r > 0 then p + 1 else p) <= cap
  {
    var d: int := cap - p;
    assert k * d == k * cap - k * p;
    if r > 0 {
      PositiveFactor(k, d);
    } else {
      NonNegativeFactor(k, d);
    }
  }

  lemma PositiveFactor(k: int, d: int)
    requires k >= 1 && k * d > 0
    ensures d > 0
  {
  }

  lemma NonNegativeFactor(k: int, d: int)
    requires k >= 1 && k * d >= 0
    ensures d >= 0
  {
  }

  /**
   * The loop of `_initialise_window_tracking` from bucket `i` on: bucket `i`
   * takes `p + 1` windows while `i < r` and `p` afterwards, from the front of
   * `rest`; a bucket of one window becomes a leaf at once, a larger one an
   * internal node built one level down. The buckets are labelled with the
   * alphabet in order.
   */
  function BuildLevel(alphabet: seq<char>, depth: nat, p: nat, r: nat, n: nat, i: nat, rest: seq<Window>): (f: seq<Node>)
    requires |alphabet| >= 2 && depth >= 1
    requires r < |alphabet| && n <= |alphabet|
    requires p > 0 ==> n == |alphabet|
    requires p == 0 ==> n == r
    requires i <= n
    requires |rest| == Remaining(p, r, n, i)
    requires (if r > 0 then p + 1 else p) <= Pow(|alphabet|, depth)
    ensures |f| == n - i
    ensures forall j :: 0 <= j < |f| ==> f[j].ch == alphabet[i + j]
    decreases depth, 0, n - i
  {
    if i == n then []
    else
      var size := Bucket(p, r, i);
      RemainingStep(p, r, n, i);
      var child :=
        if size == 1 then Leaf(alphabet[i], rest[0])
        else Internal(alphabet[i], Build(alphabet, depth - 1, rest[..size]));
      [child] + BuildLevel(alphabet, depth, p, r, n, i + 1, rest[size..])
  }

  lemma RemainingStep(p: nat, r: nat, n: nat, i: nat)
    requires i < n
    requires p == 0 ==> n == r
    ensures 1 <= Bucket(p, r, i) <= Remaining(p, r, n, i)
    ensures Remaining(p, r, n, i + 1) == Remaining(p, r, n, i) - Bucket(p, r, i)
  {
  }

  // -- what the builder guarantees

  /**
   * A tree as the builder shapes it: every internal node has between 2 and
   * K children, and child `j` of any node carries `alphabet[j]`.
   */
  predicate WellFormed(alphabet: seq<char>, n: Node)
    decreases n
  {
    match n
    case Leaf(_, _) => true
    case Internal(_, cs) =>
      && 2 <= |cs| <= |alphabet|
      && forall j :: 0 <= j < |cs| ==> cs[j].ch == alphabet[j] && WellFormed(alphabet, cs[j])
  }

  /** A frontier as the builder shapes it: at most K nodes, labelled with the alphabet in order. */
  predicate ForestWellFormed(alphabet: seq<char>, f: seq<Node>) {
    && |f| <= |alphabet|
    && forall j :: 0 <= j < |f| ==> f[j].ch == alphabet[j] && WellFormed(alphabet, f[j])
  }

  /** Child `idx` of a level as the builder makes it, holding `size` windows. */
  predicate ChildShape(alphabet: seq<char>, c: Node, idx: nat, size: nat) {
    && idx < |alphabet|
    && c.ch == alphabet[idx]
    && WellFormed(alphabet, c)
    && |NodeLeaves(c)| == size
    && (c.Leaf? <==> size == 1)
  }

  /**
   * The builder keeps every window exactly once and in order, returns
   * `min(|ws|, K)` nodes, and shapes a well-formed forest.
   */
  lemma {:induction false} BuildFacts(alphabet: seq<char>, depth: nat, ws: seq<Window>)
    requires |alphabet| >= 2
    requires |ws| <= Pow(|alphabet|, depth + 1)
    ensures Leaves(Build(alphabet, depth, ws)) == ws
    ensures |Build(alphabet, depth, ws)| == Min(|ws|, |alphabet|)
    ensures ForestWellFormed(alphabet, Build(alphabet, depth, ws))
    decreases depth, 1
  {
    var k := |alphabet|;
    if depth == 0 {
      assert Pow(k, 1) == k;
      LeafRowLeaves(alphabet, ws);
    } else {
      var p, r := |ws| / k, |ws| % k;
      var n := if p > 0 then k else r;
      LevelFits(|ws|, k, Pow(k, depth));
      BuildLevelFacts(alphabet, depth, p, r, n, 0, ws);
      LevelWidth(|ws|, k);
      var f := BuildLevel(alphabet, depth, p, r, n, 0, ws);
      assert f == Build(alphabet, depth, ws);
      forall j | 0 <= j < |f|
        ensures f[j].ch == alphabet[j] && WellFormed(alphabet, f[j])
      {
        assert ChildShape(alphabet, f[j], j, Bucket(p, r, j));
      }
    }
  }

  /** A level of `m` windows has `min(m, K)` buckets. */
  lemma LevelWidth(m: nat, k: nat)
    requires k >= 2
    ensures (if m / k > 0 then k else m % k) == Min(m, k)
  {
    var p, r := m / k, m % k;
    DivMod(m, k);
    if p > 0 {
      MulMonotone(k, 1, p);
      assert m >= k;
    } else {
      assert m == r;
    }
  }

  lemma {:induction false} LeafRowLeaves(alphabet: seq<char>, ws: seq<Window>)
    requires |ws| <= |alphabet|
    ensures Leaves(seq(|ws|, i requires 0 <= i < |ws| => Leaf(alphabet[i], ws[i]))) == ws
    decreases |ws|
  {
    var f := seq(|ws|, i requires 0 <= i < |ws| => Leaf(alphabet[i], ws[i]));
    if |ws| > 0 {
      var f' := seq(|ws| - 1, i requires 0 <= i < |ws| - 1 => Leaf(alphabet[1..][i], ws[1..][i]));
      assert f[1..] == f';
      LeafRowLeaves(alphabet[1..], ws[1..]);
    }
  }

  lemma {:induction false} BuildLevelFacts(alphabet: seq<char>, depth: nat, p: nat, r: nat, n: nat, i: nat, rest: seq<Window>)
    requires |alphabet| >= 2 && depth >= 1
    requires r < |alphabet| && n <= |alphabet|
    requires p > 0 ==> n == |alphabet|
    requires p == 0 ==> n == r
    requires i <= n
    requires |rest| == Remaining(p, r, n, i)
    requires (if r > 0 then p + 1 else p) <= Pow(|alphabet|, depth)
    ensures var f := BuildLevel(alphabet, depth, p, r, n, i, rest);
      Leaves(f) == rest && Shapes(alphabet, f, i, p, r)
    decreases depth, 0, n - i
  {
    if i < n {
      var size := Bucket(p, r, i);
      RemainingStep(p, r, n, i);
      var f := BuildLevel(alphabet, depth, p, r, n, i, rest);
      var tail := BuildLevel(alphabet, depth, p, r, n, i + 1, rest[size..]);
      BuildLevelFacts(alphabet, depth, p, r, n, i + 1, rest[size..]);
      var bucket := rest[..size];
      assert bucket[0] == rest[0];
      var child := if size == 1 then Leaf(alphabet[i], bucket[0])
        else Internal(alphabet[i], Build(alphabet, depth - 1, bucket));
      assert f == [child] + tail;
      ChildFacts(alphabet, depth, i, size, bucket);
      ConsLevel(alphabet, child, tail, rest, size, i, p, r);
    }
  }

  /** A bucket's node in front of the level's remaining nodes. */
  lemma ConsLevel(alphabet: seq<char>, child: Node, tail: seq<Node>, rest: seq<Window>, size: nat, i: nat, p: nat, r: nat)
    requires size <= |rest|
    requires ChildShape(alphabet, child, i, Bucket(p, r, i)) && NodeLeaves(child) == rest[..size]
    requires Leaves(tail) == rest[size..] && Shapes(alphabet, tail, i + 1, p, r)
    ensures Leaves([child] + tail) == rest && Shapes(alphabet, [child] + tail, i, p, r)
  {
    ConsLeaves(child, tail);
    assert rest == rest[..size] + rest[size..];
    ConsShapes(alphabet, child, tail, i, p, r);
  }

  /** Node `j` of `f` is child `i + j` of a level split into buckets of `p + 1` (the first `r`) and `p` windows. */
  predicate Shapes(alphabet: seq<char>, f: seq<Node>, i: nat, p: nat, r: nat) {
    forall j :: 0 <= j < |f| ==> ChildShape(alphabet, f[j], i + j, Bucket(p, r, i + j))
  }

  lemma ConsLeaves(n: Node, f: seq<Node>)
    ensures Leaves([n] + f) == NodeLeaves(n) + Leaves(f)
  {
    assert ([n] + f)[0] == n;
    assert ([n] + f)[1..] == f;
  }

  lemma ConsShapes(alphabet: seq<char>, n: Node, f: seq<Node>, i: nat, p: nat, r: nat)
    requires ChildShape(alphabet, n, i, Bucket(p, r, i))
    requires Shapes(alphabet, f, i + 1, p, r)
    ensures Shapes(alphabet, [n] + f, i, p, r)
  {
    forall j | 0 <= j < |[n] + f|
      ensures ChildShape(alphabet, ([n] + f)[j], i + j, Bucket(p, r, i + j))
    {
      if j > 0 {
        assert ([n] + f)[j] == f[j - 1];
      }
    }
  }

  /** The node the loop makes for one bucket. */
  lemma ChildFacts(alphabet: seq<char>, depth: nat, i: nat, size: nat, bucket: seq<Window>)
    requires |alphabet| >= 2 && depth >= 1 && i < |alphabet|
    requires 1 <= size == |bucket| <= Pow(|alphabet|, depth)
    ensures var child := if size == 1 then Leaf(alphabet[i], bucket[0])
        else Internal(alphabet[i], Build(alphabet, depth - 1, bucket));
      && ChildShape(alphabet, child, i, size)
      && NodeLeaves(child) == bucket
    decreases depth, 0, 0
  {
    if size == 1 {
      assert NodeLeaves(Leaf(alphabet[i], bucket[0])) == bucket;
    } else {
      BuildFacts(alphabet, depth - 1, bucket);
    }
  }

  /**
   * One level of the split at depth > 0, for `m` windows: `min(m, K)`
   * buckets, the first `m mod K` taking `m div K + 1` windows and the rest
   * `m div K`, none empty, consumed left to right; bucket `j` is labelled
   * `alphabet[j]` and is a leaf exactly when it holds one window.
   */
  lemma BuildPartition(alphabet: seq<char>, depth: nat, ws: seq<Window>)
    requires |alphabet| >= 2 && depth >= 1
    requires |ws| <= Pow(|alphabet|, depth + 1)
    ensures var f := Build(alphabet, depth, ws);
      && |f| == Min(|ws|, |alphabet|)
      && Leaves(f) == ws
      && forall j :: 0 <= j < |f| ==>
           && f[j].ch == alphabet[j]
           && BucketSize(|ws|, |alphabet|, j) >= 1
           && |NodeLeaves(f[j])| == BucketSize(|ws|, |alphabet|, j)
           && (f[j].Leaf? <==> BucketSize(|ws|, |alphabet|, j) == 1)
  {
    var k := |alphabet|;
    var p, r := |ws| / k, |ws| % k;
    var n := if p > 0 then k else r;
    LevelFits(|ws|, k, Pow(k, depth));
    BuildLevelFacts(alphabet, depth, p, r, n, 0, ws);
    var f := Build(alphabet, depth, ws);
    assert f == BuildLevel(alphabet, depth, p, r, n, 0, ws);
    ShapesBuckets(alphabet, f, |ws|, k);
  }

  /** Node `j` of a level shaped from `m` windows holds bucket `j`'s windows, and no bucket is empty. */
  lemma ShapesBuckets(alphabet: seq<char>, f: seq<Node>, m: nat, k: nat)
    requires k >= 1
    requires |f| == (if m / k > 0 then k else m % k)
    requires Shapes(alphabet, f, 0, m / k, m % k)
    ensures forall j :: 0 <= j < |f| ==>
      && BucketSize(m, k, j) >= 1
      && |NodeLeaves(f[j])| == BucketSize(m, k, j)
      && (f[j].Leaf? <==> BucketSize(m, k, j) == 1)
  {
    var p, r := m / k, m % k;
    forall j | 0 <= j < |f|
      ensures && BucketSize(m, k, j) >= 1
              && |NodeLeaves(f[j])| == BucketSize(m, k, j)
              && (f[j].Leaf? <==> BucketSize(m, k, j) == 1)
    {
      assert ChildShape(alphabet, f[j], 0 + j, Bucket(p, r, 0 + j));
      RemainingStep(p, r, |f|, j);
    }
  }

  /**
   * `initialise_window_tracking`: the initial frontier for the selectable
   * windows. Every window is a leaf exactly once, in order; the frontier is
   * well-formed; it is empty exactly when there are no windows and a single
   * node exactly when there is one window, which is then that node.
   */
  function InitialiseWindowTracking(alphabet: seq<char>, ws: seq<Window>): (f: seq<Node>)
    requires |alphabet| >= 2
    ensures Leaves(f) == ws
    ensures ForestWellFormed(alphabet, f)
    ensures |f| == Min(|ws|, |alphabet|)
    ensures |f| == 0 <==> |ws| == 0
    ensures |f| == 1 <==> |ws| == 1
    ensures |ws| == 1 ==> f == [Leaf(alphabet[0], ws[0])]
  {
    var d := TreeDepth(|ws|, |alphabet|);
    BuildFacts(alphabet, d, ws);
    if |ws| == 1 then
      assert d == 0;
      Build(alphabet, d, ws)
    else
      Build(alphabet, d, ws)
  }
}

=== FILE: overlays.dfy ===
/**
 * The labels drawn on the overlay windows (`_overlays_set_text`,
 * `overlays_set_text`, `overlay_set_text`) and the overlays destroyed when a
 * subtree is dropped (`wsetup_free`).
 *
 * Only leaves own an overlay window (`initialise_window_setup`); an internal
 * node's `overlay_window` is NULL, so `overlay_set_text` does nothing for it.
 * An overlay is identified here by the window it covers.
 */
module Overlays {
  import opened Base
  import opened LabelTree

  /** The longest text `overlay_set_text` accepts. */
  const MaxText: nat := 255

  /** What the program asks of the X server, or the warning it prints, in order. */
  datatype Effect =
    | Draw(overlay: Window, text: string)  // fill the overlay and draw `text` on it
    | RefuseLongText                       // warning: refusing to render text longer than 255 characters
    | Destroy(overlay: Window)             // destroy the overlay and its graphics contexts

  // -- the code

  /**
   * `_overlays_set_text(state, f, |f|, prefix)`: unless the prefix is too
   * long, every node gets the text `prefix + [ch]`; a leaf's overlay shows it
   * and an internal node passes it down to its children as their prefix.
   * Whatever the frontier, nothing is destroyed and every text drawn
   * extends `prefix` and fits in 255 characters; a prefix with no room for
   * one more character yields only the warning.
   */
  function Render(f: seq<Node>, prefix: string): (es: seq<Effect>)
    ensures Extends(es, prefix)
    ensures |prefix| + 1 > MaxText ==> es == [RefuseLongText]
    decreases f, 1
  {
    if |prefix| + 1 > MaxText then [RefuseLongText] else RenderEach(f, prefix)
  }

  function RenderEach(f: seq<Node>, prefix: string): (es: seq<Effect>)
    ensures |prefix| < MaxText ==> Extends(es, prefix)
    decreases f, 0
  {
    if |f| == 0 then [] else RenderNode(f[0], prefix) + RenderEach(f[1..], prefix)
  }

  function RenderNode(n: Node, prefix: string): (es: seq<Effect>)
    ensures |prefix| < MaxText ==> Extends(es, prefix)
    decreases n
  {
    var text := prefix + [n.ch];
    match n
    case Leaf(_, w) =>
      assert text[..|prefix|] == prefix;
      [Draw(w, text)]
    case Internal(_, cs) =>
      ExtendsShorter(Render(cs, text), prefix, n.ch);
      Render(cs, text)
  }

  /**
   * `overlays_set_text`: labels are spelled from the current frontier, so
   * relabelling destroys nothing and draws only texts of 1 to 255 characters.
   */
  function Redraw(f: seq<Node>): (es: seq<Effect>)
    ensures Extends(es, "")
  {
    Render(f, "")
  }

  /**
   * Effects that destroy nothing, and draw only texts of at most 255
   * characters that extend `prefix` by at least one character.
   */
  predicate Extends(es: seq<Effect>, prefix: string) {
    forall e :: e in es ==>
      !e.Destroy? && (e.Draw? ==> |prefix| < |e.text| <= MaxText && e.text[..|prefix|] == prefix)
  }

  lemma ExtendsShorter(es: seq<Effect>, prefix: string, c: char)
    requires Extends(es, prefix + [c])
    ensures Extends(es, prefix)
  {
    forall e | e in es && e.Draw?
      ensures e.text[..|prefix|] == prefix
    {
      assert e.text[..|prefix| + 1] == prefix + [c];
      assert e.text[..|prefix|] == e.text[..|prefix| + 1][..|prefix|];
    }
  }

  /** The windows a list of effects destroys, in order. */
  function Destroyed(es: seq<Effect>): seq<Window> {
    if |es| == 0 then []
    else (if es[0].Destroy? then [es[0].overlay] else []) + Destroyed(es[1..])
  }

  /**
   * `wsetup_free`: a node's own overlay (a leaf's) is destroyed, then its
   * children are freed in order; so freeing a node destroys exactly the
   * overlays of its leaves, left to right.
   */
  function Free(n: Node): (es: seq<Effect>)
    ensures Destroyed(es) == NodeLeaves(n)
    ensures forall i :: 0 <= i < |es| ==> es[i].Destroy?
    decreases n, 1
  {
    match n
    case Leaf(_, w) => [Destroy(w)]
    case Internal(_, cs) => FreeEach(cs)
  }

  function FreeEach(f: seq<Node>): (es: seq<Effect>)
    ensures Destroyed(es) == Leaves(f)
    ensures forall i :: 0 <= i < |es| ==> es[i].Destroy?
    decreases f, 0
  {
    if |f| == 0 then []
    else
      var es := Free(f[0]) + FreeEach(f[1..]);
      DestroyedAppend(Free(f[0]), FreeEach(f[1..]));
      es
  }

  lemma {:induction false} DestroyedAppend(a: seq<Effect>, b: seq<Effect>)
    ensures Destroyed(a + b) == Destroyed(a) + Destroyed(b)
    decreases |a|
  {
    if |a| == 0 {
      assert a + b == b;
    } else {
      assert (a + b)[0] == a[0];
      assert (a + b)[1..] == a[1..] + b;
      DestroyedAppend(a[1..], b);
    }
  }

  // -- the reference: each leaf's label

  /** A window with the characters that select it. */
  datatype Label = Label(text: string, window: Window)

  /** The labels of a node's leaves, spelled from the node's own character. */
  function NodeLabels(n: Node): seq<Label>
    decreases n
  {
    match n
    case Leaf(c, w) => [Label([c], w)]
    case Internal(c, cs) => Prefixed(c, LabelledLeaves(cs))
  }

  /** The labels of a frontier's leaves, left to right. */
  function LabelledLeaves(f: seq<Node>): seq<Label>
    decreases f
  {
    if |f| == 0 then [] else NodeLabels(f[0]) + LabelledLeaves(f[1..])
  }

  function Prefixed(c: char, ls: seq<Label>): (r: seq<Label>)
    ensures |r| == |ls|
    ensures forall i :: 0 <= i < |ls| ==> r[i] == Label([c] + ls[i].text, ls[i].window)
  {
    seq(|ls|, i requires 0 <= i < |ls| => Label([c] + ls[i].text, ls[i].window))
  }

  /** The draw requests that show the labels `ls` under `prefix`. */
  function Draws(prefix: string, ls: seq<Label>): (es: seq<Effect>)
    ensures |es| == |ls|
    ensures forall i :: 0 <= i < |ls| ==> es[i] == Draw(ls[i].window, prefix + ls[i].text)
  {
    seq(|ls|, i requires 0 <= i < |ls| => Draw(ls[i].window, prefix + ls[i].text))
  }

  function Windows(ls: seq<Label>): (ws: seq<Window>)
    ensures |ws| == |ls|
    ensures forall i :: 0 <= i < |ls| ==> ws[i] == ls[i].window
  {
    seq(|ls|, i requires 0 <= i < |ls| => ls[i].window)
  }

  /** Number of characters in the longest label of a node. */
  function NodeHeight(n: Node): nat
    decreases n
  {
    match n
    case Leaf(_, _) => 1
    case Internal(_, cs) => 1 + Height(cs)
  }

  /** Number of characters in the longest label of a frontier (0 when it is empty). */
  function Height(f: seq<Node>): nat
    decreases f
  {
    if |f| == 0 then 0 else Max(NodeHeight(f[0]), Height(f[1..]))
  }

  // -- what rendering guarantees

  /** Every label names one window, and the labels list the frontier's windows in order. */
  lemma {:induction false} LabelledWindows(f: seq<Node>)
    ensures Windows(LabelledLeaves(f)) == Leaves(f)
    decreases f
  {
    if |f| > 0 {
      NodeLabelledWindows(f[0]);
      LabelledWindows(f[1..]);
      assert Windows(LabelledLeaves(f)) == Windows(NodeLabels(f[0])) + Windows(LabelledLeaves(f[1..]));
    }
  }

  lemma {:induction false} NodeLabelledWindows(n: Node)
    ensures Windows(NodeLabels(n)) == NodeLeaves(n)
    decreases n
  {
    match n
    case Leaf(_, _) =>
    case Internal(c, cs) =>
      LabelledWindows(cs);
      assert Windows(Prefixed(c, LabelledLeaves(cs))) == Windows(LabelledLeaves(cs));
  }

  /**
   * When the longest label fits, rendering warns nowhere and draws exactly
   * `prefix` followed by each leaf's label on that leaf's overlay, in leaf
   * order; internal nodes draw nothing.
   */
  lemma {:induction false} RenderDrawsLabels(alphabet: string, f: seq<Node>, prefix: string)
    requires forall j :: 0 <= j < |f| ==> WellFormed(alphabet, f[j])
    requires |prefix| < MaxText && |prefix| + Height(f) <= MaxText
    ensures Render(f, prefix) == Draws(prefix, LabelledLeaves(f))
    decreases f, 1
  {
    RenderEachDrawsLabels(alphabet, f, prefix);
  }

  lemma {:induction false} RenderEachDrawsLabels(alphabet: string, f: seq<Node>, prefix: string)
    requires forall j :: 0 <= j < |f| ==> WellFormed(alphabet, f[j])
    requires |prefix| + Height(f) <= MaxText
    ensures RenderEach(f, prefix) == Draws(prefix, LabelledLeaves(f))
    decreases f, 0
  {
    if |f| > 0 {
      RenderNodeDrawsLabels(alphabet, f[0], prefix);
      RenderEachDrawsLabels(alphabet, f[1..], prefix);
      var a, b := NodeLabels(f[0]), LabelledLeaves(f[1..]);
      assert Draws(prefix, a + b) == Draws(prefix, a) + Draws(prefix, b);
    }
  }

  lemma {:induction false} RenderNodeDrawsLabels(alphabet: string, n: Node, prefix: string)
    requires WellFormed(alphabet, n)
    requires |prefix| + NodeHeight(n) <= MaxText
    ensures RenderNode(n, prefix) == Draws(prefix, NodeLabels(n))
    decreases n
  {
    match n
    case Leaf(_, _) =>
    case Internal(c, cs) =>
      var text := prefix + [c];
      HeightPositive(cs);
      RenderDrawsLabels(alphabet, cs, text);
      var ls := LabelledLeaves(cs);
      forall i | 0 <= i < |ls|
        ensures text + ls[i].text == prefix + ([c] + ls[i].text)
      {
      }
  }

  lemma HeightPositive(f: seq<Node>)
    requires |f| > 0
    ensures Height(f) >= 1
  {
  }

  /** With no warning, rendering a frontier draws each of its windows once, in order. */
  lemma RedrawCoversLeaves(alphabet: string, f: seq<Node>)
    requires forall j :: 0 <= j < |f| ==> WellFormed(alphabet, f[j])
    requires Height(f) <= MaxText
    ensures var es := Redraw(f);
      && |es| == |Leaves(f)|
      && forall i :: 0 <= i < |es| ==> es[i].Draw? && es[i].overlay == Leaves(f)[i]
  {
    RenderDrawsLabels(alphabet, f, "");
    LabelledWindows(f);
  }

  // -- label length of the builder's trees

  /** A frontier's height is bounded by any bound on its nodes' heights. */
  lemma {:induction false} HeightBound(f: seq<Node>, h: nat)
    requires forall j :: 0 <= j < |f| ==> NodeHeight(f[j]) <= h
    ensures Height(f) <= h
    decreases |f|
  {
    if |f| > 0 {
      assert forall j :: 0 <= j < |f[1..]| ==> f[1..][j] == f[j + 1];
      HeightBound(f[1..], h);
    }
  }

  /** A tree built with `depth` levels to go has labels of at most `depth + 1` characters. */
  lemma {:induction false} BuildHeight(alphabet: seq<char>, depth: nat, ws: seq<Window>)
    requires |alphabet| >= 2
    requires |ws| <= Pow(|alphabet|, depth + 1)
    ensures Height(Build(alphabet, depth, ws)) <= depth + 1
    decreases depth, 1
  {
    var k := |alphabet|;
    var f := Build(alphabet, depth, ws);
    if depth == 0 {
      assert Pow(k, 1) == k;
      forall j | 0 <= j < |f| ensures NodeHeight(f[j]) <= 1 {
        assert f[j] == Leaf(alphabet[j], ws[j]);
      }
    } else {
      var p, r := |ws| / k, |ws| % k;
      var n := if p > 0 then k else r;
      LevelFits(|ws|, k, Pow(k, depth));
      BuildLevelHeight(alphabet, depth, p, r, n, 0, ws);
      assert f == BuildLevel(alphabet, depth, p, r, n, 0, ws);
    }
    HeightBound(f, depth + 1);
  }

  lemma {:induction false} BuildLevelHeight(alphabet: seq<char>, depth: nat, p: nat, r: nat, n: nat, i: nat, rest: seq<Window>)
    requires |alphabet| >= 2 && depth >= 1
    requires r < |alphabet| && n <= |alphabet|
    requires p > 0 ==> n == |alphabet|
    requires p == 0 ==> n == r
    requires i <= n
    requires |rest| == Remaining(p, r, n, i)
    requires (if r > 0 then p + 1 else p) <= Pow(|alphabet|, depth)
    ensures Heights(BuildLevel(alphabet, depth, p, r, n, i, rest), depth + 1)
    decreases depth, 0, n - i
  {
    if i < n {
      var size := Bucket(p, r, i);
      RemainingStep(p, r, n, i);
      var f := BuildLevel(alphabet, depth, p, r, n, i, rest);
      var tail := BuildLevel(alphabet, depth, p, r, n, i + 1, rest[size..]);
      BuildLevelHeight(alphabet, depth, p, r, n, i + 1, rest[size..]);
      var bucket := rest[..size];
      assert bucket[0] == rest[0];
      var child := if size == 1 then Leaf(alphabet[i], bucket[0])
        else Internal(alphabet[i], Build(alphabet, depth - 1, bucket));
      assert f == [child] + tail;
      ChildHeight(alphabet, depth, i, size, bucket);
      ConsHeights(child, tail, depth + 1);
    }
  }

  /** Every node of `f` has height at most `h`. */
  predicate Heights(f: seq<Node>, h: nat) {
    forall j :: 0 <= j < |f| ==> NodeHeight(f[j]) <= h
  }

  lemma ConsHeights(n: Node, f: seq<Node>, h: nat)
    requires NodeHeight(n) <= h && Heights(f, h)
    ensures Heights([n] + f, h)
  {
    forall j | 0 <= j < |[n] + f| ensures NodeHeight(([n] + f)[j]) <= h {
      if j > 0 {
        assert ([n] + f)[j] == f[j - 1];
      }
    }
  }

  lemma ChildHeight(alphabet: seq<char>, depth: nat, i: nat, size: nat, bucket: seq<Window>)
    requires |alphabet| >= 2 && depth >= 1 && i < |alphabet|
    requires 1 <= size == |bucket| <= Pow(|alphabet|, depth)
    ensures var child := if size == 1 then Leaf(alphabet[i], bucket[0])
        else Internal(alphabet[i], Build(alphabet, depth - 1, bucket));
      NodeHeight(child) <= depth + 1
    decreases depth, 0, 0
  {
    if size > 1 {
      BuildHeight(alphabet, depth - 1, bucket);
    }
  }

  /** `k^d` grows at least as fast as `2^d`. */
  lemma {:induction false} PowAtLeastTwo(k: nat, d: nat)
    requires k >= 2
    ensures Pow(k, d) >= Pow(2, d)
  {
    if d > 0 {
      PowAtLeastTwo(k, d - 1);
      var a, b := Pow(2, d - 1), Pow(k, d - 1);
      MulMonotone(k, a, b);
      MulMonotone(a, 2, k);
      assert Pow(2, d) == 2 * a && Pow(k, d) == k * b;
      assert 2 * a == a * 2 && k * a == a * k;
    }
  }

  lemma {:induction false} PowTwoMonotone(a: nat, b: nat)
    requires a <= b
    ensures Pow(2, a) <= Pow(2, b)
    decreases b
  {
    if a < b {
      PowTwoMonotone(a, b - 1);
    }
  }

  lemma {:induction false} PowAdd(k: nat, a: nat, b: nat)
    ensures Pow(k, a + b) == Pow(k, a) * Pow(k, b)
    decreases b
  {
    if b > 0 {
      PowAdd(k, a, b - 1);
      assert Pow(k, a + b) == k * Pow(k, a + b - 1);
      assert Pow(k, a) * Pow(k, b) == Pow(k, a) * (k * Pow(k, b - 1));
    }
  }

  lemma PowTwo32()
    ensures Pow(2, 32) == 0x1_0000_0000
  {
    assert Pow(2, 4) == 16;
    PowAdd(2, 4, 4);
    PowAdd(2, 8, 8);
    PowAdd(2, 16, 16);
  }

  /** For fewer than 2^32 windows the tree has at most 32 levels. */
  lemma DepthBelow32(n: nat, k: nat)
    requires k >= 2 && n <= 0xffff_ffff
    ensures TreeDepth(n, k) < 32
  {
    var d := TreeDepth(n, k);
    if d >= 32 {
      PowAtLeastTwo(k, d);
      PowTwoMonotone(32, d);
      PowTwo32();
      assert false;
    }
  }

  /**
   * For any number of windows a 32-bit count can hold, the initial labels
   * have at most 32 characters, so `_overlays_set_text` never refuses: every
   * window's overlay shows exactly that window's label.
   */
  lemma InitialLabelsFit(alphabet: seq<char>, ws: seq<Window>)
    requires |alphabet| >= 2
    requires |ws| <= 0xffff_ffff
    ensures var f := InitialiseWindowTracking(alphabet, ws);
      && Height(f) <= 32
      && Redraw(f) == Draws("", LabelledLeaves(f))
  {
    var k := |alphabet|;
    var d := TreeDepth(|ws|, k);
    DepthBelow32(|ws|, k);
    var f := InitialiseWindowTracking(alphabet, ws);
    assert f == Build(alphabet, d, ws);
    BuildHeight(alphabet, d, ws);
    RenderDrawsLabels(alphabet, f, "");
  }
}

=== FILE: program.dfy ===
/**
 * `main`: parse the command line, choose the windows to label, build the
 * label tree, then either finish at once or run the event loop until a key
 * ends the selection. The X server's replies and the events it delivers are
 * inputs; connecting and grabbing the keyboard are taken to succeed.
 */
module Program {
  import opened Base
  import opened Keysyms
  import opened Cli
  import opened WindowFilter
  import opened LabelTree
  import opened Overlays
  import opened Selection

  /** How the process ends, or that it is still waiting for events. */
  datatype Outcome =
    | Printed(out: string)            // a window was chosen: the line on stdout, exit status 0
    | ExitedNoMatch                   // exit status 0 with nothing printed
    | UsageFailed(usage: UsageError)  // exit status 64 (`EX_USAGE`)
    | RequestFailed(fatal: Fatal)     // a needed reply was missing: exit status 70 (`EX_SOFTWARE`)
    | EventFailed(code: nat)          // an error reply in the event loop: exit status 70
    | Waiting(frontier: seq<Node>)    // the events so far did not end the selection

  /**
   * The end of a run, as the process reports it: a line is printed exactly
   * when a window was chosen, and it reads back as that window.
   */
  function Report(format: Format, s: State): (o: Outcome)
    ensures o.Printed? <==> s.Chosen?
    ensures s.Chosen? ==> ReadWindow(format, o.out) == Some(s.window)
    ensures o == ExitedNoMatch <==> s == NoMatch
    ensures o.EventFailed? <==> s.EventLoopError?
    ensures o.Waiting? <==> s.Selecting?
  {
    match s
    case Selecting(f) => Waiting(f)
    case Chosen(w) =>
      ChooseWindowRoundTrip(format, w);
      Printed(ChooseWindow(format, w))
    case NoMatch => ExitedNoMatch
    case EventLoopError(code) => EventFailed(code)
  }

  /**
   * The frontier `main` builds for a configuration and the selected windows:
   * it holds each window once, in order, and is labelled with the alphabet.
   */
  function InitialFrontier(cfg: Config, ws: seq<Window>): (f: seq<Node>)
    requires |cfg.ksl| >= 2
    ensures Leaves(f) == ws
    ensures ForestWellFormed(CharsOf(cfg.ksl), f)
  {
    InitialiseWindowTracking(CharsOf(cfg.ksl), ws)
  }

  /**
   * `main` once the windows are known. No window means no match and one
   * window is printed at once, before any overlay is drawn; otherwise the
   * printed window is always one of the selected windows, and typing the
   * label drawn on a window prints that window.
   */
  function Select(cfg: Config, ws: seq<Window>, events: seq<Event>): (o: Outcome)
    requires ValidAlphabet(cfg.ksl) && |cfg.ksl| >= 2
    ensures o.Printed? ==> exists w :: w in ws && o.out == ChooseWindow(cfg.format, w)
    ensures |ws| == 0 ==> o == ExitedNoMatch
    ensures |ws| == 1 ==> o == Printed(ChooseWindow(cfg.format, ws[0]))
    ensures |ws| >= 2 ==> forall l :: l in Overlays.LabelledLeaves(InitialFrontier(cfg, ws)) && events == KeysFor(l.text) ==>
      o == Printed(ChooseWindow(cfg.format, l.window))
  {
    var f := InitialFrontier(cfg, ws);
    var s := Start(f).0;
    var last := Run(cfg.ksl, s, events);
    SelectFacts(cfg, ws, events);
    Report(cfg.format, last)
  }

  lemma SelectFacts(cfg: Config, ws: seq<Window>, events: seq<Event>)
    requires ValidAlphabet(cfg.ksl) && |cfg.ksl| >= 2
    ensures var f := InitialFrontier(cfg, ws);
      var last := Run(cfg.ksl, Start(f).0, events);
      && (last.Chosen? ==> last.window in ws)
      && (|ws| == 0 ==> last == NoMatch)
      && (|ws| == 1 ==> last == Chosen(ws[0]))
      && (|ws| >= 2 ==> forall l :: l in Overlays.LabelledLeaves(f) && events == KeysFor(l.text) ==> last == Chosen(l.window))
  {
    var f := InitialFrontier(cfg, ws);
    var s := Start(f).0;
    var last := Run(cfg.ksl, s, events);
    if |ws| >= 2 {
      assert s == Selecting(f);
      forall l | l in Overlays.LabelledLeaves(f) && events == KeysFor(l.text)
        ensures last == Chosen(l.window)
      {
        TypingLabelChooses(cfg.ksl, f, l);
      }
    }
  }

  /**
   * `main`: a bad command line, or a reply that is needed and missing, ends
   * the process before any overlay exists; otherwise the selection proceeds
   * on the windows the filter keeps.
   */
  method Session(args: seq<Arg>, all: seq<TopLevel>, clientList: Option<seq<Window>>, events: seq<Event>)
    returns (o: Outcome)
    ensures ParseArgs(args).Err? ==> o == UsageFailed(ParseArgs(args).error)
    ensures ParseArgs(args).Ok? ==>
      var cfg := ParseArgs(args).value;
      var lists := Lists(ManagedWindows(clientList), cfg.whitelist, cfg.blacklist);
      && (o.RequestFailed? <==> exists i :: 0 <= i < |all| && NeedsMissingReply(lists, all[i]))
      && (!o.RequestFailed? ==> o == Select(cfg, Selected(lists, all), events))
  {
    var parsed := ParseArgs(args);
    if parsed.Err? {
      return UsageFailed(parsed.error);
    }
    var cfg := parsed.value;
    var tracked := InitialiseTrackedWindows(all, clientList, cfg.whitelist, cfg.blacklist);
    if tracked.Err? {
      return RequestFailed(tracked.error);
    }
    o := Select(cfg, tracked.value, events);
  }
}

=== FILE: selection.dfy ===
/**
 * The selection state machine: the start-up branch of `main`, the event
 * loop's dispatch, `handle_keypress`, `wsetups_descend_by_char`,
 * `wsetups_descend_by_index` and `wsetup_choose`.
 *
 * The frontier (`state->wsetups`) is the list of nodes whose characters
 * can be typed next. A key either picks a node or ends the run without a
 * match; picking a leaf chooses its window and exits, picking an internal
 * node makes its children the frontier and frees every other node of the
 * old frontier.
 */
module Selection {
  import opened Base
  import opened Keysyms
  import opened LabelTree
  import opened Overlays

  /** Where a run stands. `Chosen` and `NoMatch` are the two ways the process exits with status 0. */
  datatype State =
    | Selecting(frontier: seq<Node>)
    | Chosen(window: Window)          // `choose_window`: the window is printed, then `xcw_exit_match`
    | NoMatch                         // `xcw_exit_no_match`
    | EventLoopError(code: nat)       // `xcw_die("event loop error: ...")`

  /** The events the loop distinguishes (`response_type & ~0x80`); the keysym is X's translation of the key pressed. */
  datatype Event = ErrorReply(code: nat) | Expose | KeyPress(keysym: Keysym) | OtherEvent

  // -- the code

  /** The index of the first node of `f` carrying `c` (the search in `wsetups_descend_by_char`). */
  function FindNode(f: seq<Node>, c: char): (r: Option<nat>)
    ensures r.Some? ==> r.value < |f| && f[r.value].ch == c
    ensures r.Some? ==> forall j :: 0 <= j < r.value ==> f[j].ch != c
    ensures r.None? <==> forall j :: 0 <= j < |f| ==> f[j].ch != c
  {
    FindNodeFrom(f, c, 0)
  }

  function FindNodeFrom(f: seq<Node>, c: char, i: nat): (r: Option<nat>)
    requires i <= |f|
    ensures r.Some? ==> i <= r.value < |f| && f[r.value].ch == c
    ensures r.Some? ==> forall j :: i <= j < r.value ==> f[j].ch != c
    ensures r.None? <==> forall j :: i <= j < |f| ==> f[j].ch != c
    decreases |f| - i
  {
    if i == |f| then None
    else if f[i].ch == c then Some(i)
    else FindNodeFrom(f, c, i + 1)
  }

  /**
   * `wsetup_choose`: a leaf's window is chosen; an internal node's children
   * become the frontier and are relabelled from it. Either way the windows
   * are the node's own, and no overlay is destroyed.
   */
  function Choose(n: Node): (r: (State, seq<Effect>))
    ensures r.0.Chosen? <==> n.Leaf?
    ensures r.0.Chosen? || r.0.Selecting?
    ensures r.0.Chosen? ==> r.0.window in NodeLeaves(n) && r.1 == []
    ensures r.0.Selecting? ==> Leaves(r.0.frontier) == NodeLeaves(n)
    ensures n.Internal? ==> r == (Selecting(n.children), Redraw(n.children))
    ensures Destroyed(r.1) == []
  {
    match n
    case Leaf(_, w) => (Chosen(w), [])
    case Internal(_, cs) =>
      RedrawDestroysNothing(cs);
      (Selecting(cs), Redraw(cs))
  }

  /**
   * `wsetups_descend_by_index`: nodes before `index` are freed, then node
   * `index` is chosen — which ends the process if it is a leaf — and then
   * the nodes after it are freed. So a leaf is chosen after destroying the
   * overlays before it; an internal node becomes the frontier after
   * destroying the overlays of every other node.
   */
  function DescendByIndex(f: seq<Node>, index: nat): (r: (State, seq<Effect>))
    requires index < |f|
    ensures f[index].Leaf? ==>
      r.0 == Chosen(f[index].window) && Destroyed(r.1) == Leaves(f[..index])
    ensures f[index].Internal? ==>
      r.0 == Selecting(f[index].children) && Destroyed(r.1) == Leaves(f[..index]) + Leaves(f[index + 1..])
    ensures f[index].Leaf? ==> r.1 == FreeEach(f[..index])
    ensures f[index].Internal? ==>
      r.1 == FreeEach(f[..index]) + Redraw(f[index].children) + FreeEach(f[index + 1..])
  {
    var before, after := FreeEach(f[..index]), FreeEach(f[index + 1..]);
    var chosen := Choose(f[index]);
    FreeAroundChoice(before, chosen.1, after);
    if chosen.0.Chosen? then (chosen.0, before + chosen.1)
    else (chosen.0, before + chosen.1 + after)
  }

  /** Effects that destroy nothing, between two batches of frees, leave exactly those frees' destructions. */
  lemma FreeAroundChoice(before: seq<Effect>, drawn: seq<Effect>, after: seq<Effect>)
    requires Destroyed(drawn) == []
    ensures Destroyed(before + drawn) == Destroyed(before)
    ensures Destroyed(before + drawn + after) == Destroyed(before) + Destroyed(after)
  {
    DestroyedAppend(before, drawn);
    DestroyedAppend(before + drawn, after);
  }

  /**
   * `wsetups_descend_by_char`: a character no node carries ends the run
   * without effects; otherwise the run moves into the frontier's subtrees,
   * choosing one of its windows or keeping a subset of them.
   */
  function DescendByChar(f: seq<Node>, c: char): (r: (State, seq<Effect>))
    ensures r.0 == NoMatch <==> forall j :: 0 <= j < |f| ==> f[j].ch != c
    ensures r.0 == NoMatch ==> r.1 == []
    ensures r.0.Chosen? ==> r.0.window in Leaves(f)
    ensures r.0.Selecting? ==> forall w :: w in Leaves(r.0.frontier) ==> w in Leaves(f)
  {
    match FindNode(f, c)
    case None => (NoMatch, [])
    case Some(index) =>
      LeavesAround(f, index);
      DescendByIndex(f, index)
  }

  /**
   * `handle_keypress`: a keysym outside the alphabet ends the run without a
   * match and without effects; otherwise its character is typed.
   */
  function HandleKeypress(ksl: seq<LookupEntry>, f: seq<Node>, k: Keysym): (r: (State, seq<Effect>))
    ensures (forall i :: 0 <= i < |ksl| ==> ksl[i].keysym != k) ==> r == (NoMatch, [])
    ensures r.0 == NoMatch || r.0.Chosen? || r.0.Selecting?
    ensures r.0 == NoMatch ==> r.1 == []
    ensures r.0.Chosen? ==> r.0.window in Leaves(f)
    ensures r.0.Selecting? ==> forall w :: w in Leaves(r.0.frontier) ==> w in Leaves(f)
  {
    match FindKeysym(ksl, k)
    case None => (NoMatch, [])
    case Some(i) => DescendByChar(f, ksl[i].character)
  }

  /**
   * One pass of the event loop while selecting: only an error reply is an
   * error; `Expose` relabels and other events are ignored, both keeping the
   * frontier and destroying nothing; and no event adds a window to the
   * frontier or chooses one outside it. On a frontier shaped by the builder
   * whose labels fit, `Expose` shows every window's current label again.
   */
  function HandleEvent(ksl: seq<LookupEntry>, f: seq<Node>, e: Event): (r: (State, seq<Effect>))
    ensures r.0.EventLoopError? <==> e.ErrorReply?
    ensures e.Expose? || e.OtherEvent? ==> r.0 == Selecting(f) && Destroyed(r.1) == []
    ensures e.Expose? && (forall j :: 0 <= j < |f| ==> WellFormed(CharsOf(ksl), f[j])) && Height(f) <= MaxText ==>
      r == (Selecting(f), Draws("", LabelledLeaves(f)))
    ensures r.0.Chosen? ==> r.0.window in Leaves(f)
    ensures r.0.Selecting? ==> forall w :: w in Leaves(r.0.frontier) ==> w in Leaves(f)
  {
    match e
    case ErrorReply(code) => (EventLoopError(code), [])
    case Expose =>
      RedrawDestroysNothing(f);
      RedrawShowsLabels(CharsOf(ksl), f);
      (Selecting(f), Redraw(f))
    case KeyPress(k) => HandleKeypress(ksl, f, k)
    case OtherEvent => (Selecting(f), [])
  }

  /**
   * The start-up branch of `main` once the frontier is built: an empty
   * frontier is no match, a single leaf is chosen without drawing, and
   * otherwise selection starts on the frontier's windows; nothing is
   * destroyed.
   */
  function Start(f: seq<Node>): (r: (State, seq<Effect>))
    ensures r.0 == NoMatch <==> |f| == 0
    ensures r.0.Chosen? ==> r.0.window in Leaves(f) && r.1 == []
    ensures r.0.Selecting? ==> Leaves(r.0.frontier) == Leaves(f)
    ensures Destroyed(r.1) == []
  {
    if |f| == 0 then (NoMatch, [])
    else if |f| == 1 then
      assert Leaves(f) == NodeLeaves(f[0]) + Leaves(f[1..]);
      Choose(f[0])
    else
      RedrawDestroysNothing(f);
      (Selecting(f), Redraw(f))
  }

  /**
   * The event loop over a sequence of events; a run that has ended ignores
   * the rest. Whatever the events, a run can only choose one of the
   * starting frontier's windows and never gains a window.
   */
  function Run(ksl: seq<LookupEntry>, s: State, events: seq<Event>): (r: State)
    ensures !s.Selecting? ==> r == s
    ensures s.Selecting? && r.Chosen? ==> r.window in Leaves(s.frontier)
    ensures s.Selecting? && r.Selecting? ==> forall w :: w in Leaves(r.frontier) ==> w in Leaves(s.frontier)
    decreases |events|
  {
    if |events| == 0 || !s.Selecting? then s
    else Run(ksl, HandleEvent(ksl, s.frontier, events[0]).0, events[1..])
  }

  // -- what the steps guarantee

  /** The overlays alive in a state: those of the frontier's leaves (none once the process exits). */
  function Live(s: State): seq<Window> {
    if s.Selecting? then Leaves(s.frontier) else []
  }

  /**
   * Descending into an internal node frees exactly the other nodes of the
   * frontier: the overlays destroyed and those still alive together are the
   * overlays alive before, each once, and the chosen subtree loses none.
   * Choosing a leaf destroys only the overlays of the nodes before it.
   */
  lemma {:induction false} DescendFreesSiblings(f: seq<Node>, index: nat)
    requires index < |f|
    ensures var next := DescendByIndex(f, index).0;
      var destroyed := Destroyed(DescendByIndex(f, index).1);
      && (f[index].Internal? ==>
            && next == Selecting(f[index].children)
            && destroyed == Leaves(f[..index]) + Leaves(f[index + 1..])
            && multiset(destroyed) + multiset(Live(next)) == multiset(Live(Selecting(f))))
      && (f[index].Leaf? ==>
            && next == Chosen(f[index].window)
            && destroyed == Leaves(f[..index]))
  {
    if f[index].Internal? {
      LeavesAround(f, index);
    }
  }

  /** On a well-formed frontier whose labels fit, relabelling draws each leaf's label on its overlay. */
  lemma RedrawShowsLabels(alphabet: string, f: seq<Node>)
    ensures (forall j :: 0 <= j < |f| ==> WellFormed(alphabet, f[j])) && Height(f) <= MaxText ==>
      Redraw(f) == Draws("", LabelledLeaves(f))
  {
    if (forall j :: 0 <= j < |f| ==> WellFormed(alphabet, f[j])) && Height(f) <= MaxText {
      RenderDrawsLabels(alphabet, f, "");
    }
  }

  /**
   * A key press that descends into an internal node of a frontier shaped by
   * the builder, whose labels fit, frees the nodes before it, then shows
   * every window of the new frontier its label spelled from that frontier,
   * then frees the nodes after it.
   */
  lemma DescendRelabels(alphabet: string, f: seq<Node>, index: nat)
    requires index < |f| && f[index].Internal?
    requires forall j :: 0 <= j < |f| ==> WellFormed(alphabet, f[j])
    requires Height(f) <= MaxText
    ensures DescendByIndex(f, index) ==
      (Selecting(f[index].children),
       FreeEach(f[..index]) + Draws("", LabelledLeaves(f[index].children)) + FreeEach(f[index + 1..]))
  {
    var cs := f[index].children;
    NodeHeightBelow(f, index);
    assert forall j :: 0 <= j < |cs| ==> WellFormed(alphabet, cs[j]);
    RenderDrawsLabels(alphabet, cs, "");
  }

  /** No node is taller than its frontier. */
  lemma {:induction false} NodeHeightBelow(f: seq<Node>, index: nat)
    requires index < |f|
    ensures NodeHeight(f[index]) <= Height(f)
    decreases index
  {
    if index > 0 {
      NodeHeightBelow(f[1..], index - 1);
    }
  }

  /** Relabelling destroys no overlay. */
  lemma {:induction false} RedrawDestroysNothing(f: seq<Node>)
    ensures Destroyed(Redraw(f)) == []
  {
    NoDestroys(Redraw(f));
  }

  /** A frontier's leaves are those before a node, the node's, and those after it. */
  lemma {:induction false} LeavesAround(f: seq<Node>, index: nat)
    requires index < |f|
    ensures Leaves(f) == Leaves(f[..index]) + NodeLeaves(f[index]) + Leaves(f[index + 1..])
  {
    var a, x, b := f[..index], f[index], f[index + 1..];
    var xb := [x] + b;
    assert f == a + xb;
    LeavesAppend(a, xb);
    assert xb[0] == x && xb[1..] == b;
  }

  lemma {:induction false} NoDestroys(es: seq<Effect>)
    requires forall e :: e in es ==> !e.Destroy?
    ensures Destroyed(es) == []
    decreases |es|
  {
    if |es| > 0 {
      assert es[0] in es;
      assert forall e :: e in es[1..] ==> e in es;
      NoDestroys(es[1..]);
    }
  }

  /**
   * A frontier as the builder labels it (node `j` carries alphabet character
   * `j`): the key for character `j` descends into node `j` when there is one
   * and ends the run otherwise, and a key outside the alphabet ends the run.
   */
  lemma KeypressPicksIndex(ksl: seq<LookupEntry>, f: seq<Node>, k: Keysym)
    requires ValidAlphabet(ksl)
    requires ForestWellFormed(CharsOf(ksl), f)
    ensures var r := HandleKeypress(ksl, f, k);
      match FindKeysym(ksl, k)
      case None => r == (NoMatch, [])
      case Some(i) => r == (if i < |f| then DescendByIndex(f, i) else (NoMatch, []))
  {
    match FindKeysym(ksl, k)
    case None =>
    case Some(i) =>
      var c := ksl[i].character;
      forall j | 0 <= j < |f| && j != i
        ensures f[j].ch != c
      {
        assert f[j].ch == ksl[j].character;
      }
  }

  // -- start-up on the builder's frontier

  /**
   * Start-up on the frontier `initialise_window_tracking` builds: no window
   * ends the run without a match, one window is chosen at once without any
   * label being drawn, and otherwise every window's overlay is alive and,
   * for any count of windows a 32-bit count can hold, shows that window's
   * label.
   */
  lemma StartOnWindows(alphabet: string, ws: seq<Window>)
    requires |alphabet| >= 2
    ensures var f := InitialiseWindowTracking(alphabet, ws);
      var (s, es) := Start(f);
      && (|ws| == 0 ==> s == NoMatch && es == [])
      && (|ws| == 1 ==> s == Chosen(ws[0]) && es == [])
      && (|ws| >= 2 ==> s == Selecting(f) && Live(s) == ws)
      && (2 <= |ws| <= 0xffff_ffff ==> es == Draws("", LabelledLeaves(f)))
  {
    if 2 <= |ws| <= 0xffff_ffff {
      InitialLabelsFit(alphabet, ws);
    }
  }

  // -- typing a label

  /** The keysyms of the keys that type `t`: for this alphabet each character's keysym is its code. */
  function KeysFor(t: string): (keys: seq<Event>)
    ensures |keys| == |t|
    ensures forall i :: 0 <= i < |t| ==> keys[i] == KeyPress(t[i] as int)
  {
    seq(|t|, i requires 0 <= i < |t| => KeyPress(t[i] as int))
  }

  lemma {:induction false} NodeLabelsMember(n: Node, l: Label)
    ensures l in NodeLabels(n) <==>
      match n
      case Leaf(c, w) => l == Label([c], w)
      case Internal(c, cs) => |l.text| >= 1 && l.text[0] == c && Label(l.text[1..], l.window) in LabelledLeaves(cs)
  {
    match n
    case Leaf(_, _) =>
    case Internal(c, cs) =>
      var ls := LabelledLeaves(cs);
      if l in Prefixed(c, ls) {
        var i :| 0 <= i < |ls| && Prefixed(c, ls)[i] == l;
        assert l.text[1..] == ls[i].text;
      }
      if |l.text| >= 1 && l.text[0] == c && Label(l.text[1..], l.window) in ls {
        var i :| 0 <= i < |ls| && ls[i] == Label(l.text[1..], l.window);
        assert Prefixed(c, ls)[i] == l;
      }
  }

  lemma {:induction false} LabelledLeavesMember(f: seq<Node>, l: Label)
    ensures l in LabelledLeaves(f) <==> exists j :: 0 <= j < |f| && l in NodeLabels(f[j])
    decreases |f|
  {
    if |f| > 0 {
      LabelledLeavesMember(f[1..], l);
      if exists j :: 0 <= j < |f[1..]| && l in NodeLabels(f[1..][j]) {
        var j :| 0 <= j < |f[1..]| && l in NodeLabels(f[1..][j]);
        assert f[j + 1] == f[1..][j];
      }
      if exists j :: 0 <= j < |f| && l in NodeLabels(f[j]) {
        var j :| 0 <= j < |f| && l in NodeLabels(f[j]);
        if j > 0 {
          assert f[1..][j - 1] == f[j];
        }
      }
    }
  }

  /** Labels of a frontier as the builder shapes it use only alphabet characters and are non-empty. */
  lemma {:induction false} LabelsWellFormed(alphabet: string, f: seq<Node>, l: Label)
    requires forall j :: 0 <= j < |f| ==> f[j].ch in alphabet && WellFormed(alphabet, f[j])
    requires l in LabelledLeaves(f)
    ensures |l.text| >= 1 && forall j :: 0 <= j < |l.text| ==> l.text[j] in alphabet
    decreases f
  {
    LabelledLeavesMember(f, l);
    var j :| 0 <= j < |f| && l in NodeLabels(f[j]);
    NodeLabelsMember(f[j], l);
    match f[j]
    case Leaf(_, _) =>
    case Internal(c, cs) =>
      var l' := Label(l.text[1..], l.window);
      forall m | 0 <= m < |cs|
        ensures cs[m].ch in alphabet && WellFormed(alphabet, cs[m])
      {
        assert cs[m].ch == alphabet[m];
      }
      LabelsWellFormed(alphabet, cs, l');
      forall m | 0 <= m < |l.text|
        ensures l.text[m] in alphabet
      {
        if m > 0 {
          assert l.text[m] == l'.text[m - 1];
        }
      }
  }

  /** Label characters of a frontier as the builder shapes it are characters of the alphabet's table. */
  lemma LabelInputChars(ksl: seq<LookupEntry>, f: seq<Node>, l: Label)
    requires ValidAlphabet(ksl)
    requires ForestWellFormed(CharsOf(ksl), f)
    requires l in LabelledLeaves(f)
    ensures |l.text| >= 1 && forall i :: 0 <= i < |l.text| ==> IsInputChar(l.text[i])
  {
    var alphabet := CharsOf(ksl);
    LabelsWellFormed(alphabet, f, l);
    forall i | 0 <= i < |l.text|
      ensures IsInputChar(l.text[i])
    {
      var m :| 0 <= m < |alphabet| && alphabet[m] == l.text[i];
    }
  }

  /** On a frontier as the builder shapes it, pressing the key of node `j`'s character descends into node `j`. */
  lemma KeyOfNode(ksl: seq<LookupEntry>, f: seq<Node>, j: nat)
    requires ValidAlphabet(ksl)
    requires ForestWellFormed(CharsOf(ksl), f)
    requires j < |f|
    ensures IsInputChar(f[j].ch)
    ensures HandleEvent(ksl, f, KeyPress(f[j].ch as int)) == DescendByIndex(f, j)
  {
    assert f[j].ch == ksl[j].character;
    assert ksl[j] == EntryOf(ksl[j].character);
    LookupInverts(ksl, j);
    KeypressPicksIndex(ksl, f, ksl[j].keysym);
  }

  /**
   * The round trip: from any frontier the builder shapes, typing the label
   * drawn on a window's overlay chooses that window.
   */
  lemma {:induction false} TypingLabelChooses(ksl: seq<LookupEntry>, f: seq<Node>, l: Label)
    requires ValidAlphabet(ksl)
    requires ForestWellFormed(CharsOf(ksl), f)
    requires l in LabelledLeaves(f)
    ensures |l.text| >= 1 && forall i :: 0 <= i < |l.text| ==> IsInputChar(l.text[i])
    ensures Run(ksl, Selecting(f), KeysFor(l.text)) == Chosen(l.window)
    decreases f
  {
    LabelInputChars(ksl, f, l);
    var j := LabelNode(f, l);
    var keys := KeysFor(l.text);
    KeysForTail(l.text);
    KeyOfNode(ksl, f, j);
    RunStep(ksl, f, keys);
    var next := DescendByIndex(f, j).0;
    match f[j]
    case Leaf(_, w) =>
      assert next == Chosen(w);
    case Internal(c, cs) =>
      var l' := Label(l.text[1..], l.window);
      assert next == Selecting(cs);
      TypingLabelChooses(ksl, cs, l');
  }

  /** The node of the frontier whose subtree holds a label, and what is left of the label below it. */
  lemma {:induction false} LabelNode(f: seq<Node>, l: Label) returns (j: nat)
    requires l in LabelledLeaves(f)
    ensures j < |f| && |l.text| >= 1 && l.text[0] == f[j].ch
    ensures f[j].Leaf? ==> l == Label([f[j].ch], f[j].window)
    ensures f[j].Internal? ==> Label(l.text[1..], l.window) in LabelledLeaves(f[j].children)
  {
    LabelledLeavesMember(f, l);
    j :| 0 <= j < |f| && l in NodeLabels(f[j]);
    NodeLabelsMember(f[j], l);
  }

  /** A label under child `j`, prefixed with the child's character, is a label of the frontier. */
  lemma {:induction false} ChildLabel(f: seq<Node>, j: nat, l: Label)
    requires j < |f| && f[j].Internal? && l in LabelledLeaves(f[j].children)
    ensures Label([f[j].ch] + l.text, l.window) in LabelledLeaves(f)
  {
    var l' := Label([f[j].ch] + l.text, l.window);
    assert l'.text[1..] == l.text;
    NodeLabelsMember(f[j], l');
    LabelledLeavesMember(f, l');
  }

  lemma {:induction false} LeafLabel(f: seq<Node>, j: nat)
    requires j < |f| && f[j].Leaf?
    ensures Label([f[j].ch], f[j].window) in LabelledLeaves(f)
  {
    NodeLabelsMember(f[j], Label([f[j].ch], f[j].window));
    LabelledLeavesMember(f, Label([f[j].ch], f[j].window));
  }

  lemma {:induction false} KeysForTail(t: string)
    requires |t| >= 1
    ensures KeysFor(t)[1..] == KeysFor(t[1..])
  {
  }

  lemma {:induction false} RunStep(ksl: seq<LookupEntry>, f: seq<Node>, events: seq<Event>)
    requires |events| >= 1
    ensures Run(ksl, Selecting(f), events) == Run(ksl, HandleEvent(ksl, f, events[0]).0, events[1..])
  {
  }

  /** Only key presses. */
  predicate AllKeyPresses(events: seq<Event>) {
    forall i :: 0 <= i < |events| ==> events[i].KeyPress?
  }

  /** The first `|l.text|` events are the key presses that type `l`. */
  predicate TypesLabel(events: seq<Event>, l: Label) {
    |l.text| <= |events| && forall i :: 0 <= i < |l.text| ==> events[i] == KeyPress(l.text[i] as int)
  }

  /** A run of key presses that ends in a choice starts with the key of some node of the frontier. */
  lemma FirstKeyPicksNode(ksl: seq<LookupEntry>, f: seq<Node>, events: seq<Event>, w: Window) returns (j: nat)
    requires ValidAlphabet(ksl)
    requires ForestWellFormed(CharsOf(ksl), f)
    requires AllKeyPresses(events)
    requires Run(ksl, Selecting(f), events) == Chosen(w)
    ensures |events| >= 1 && j < |f| && events[0] == KeyPress(f[j].ch as int)
    ensures Run(ksl, DescendByIndex(f, j).0, events[1..]) == Chosen(w)
  {
    var k := events[0].keysym;
    var rest := events[1..];
    var next := HandleKeypress(ksl, f, k).0;
    assert Run(ksl, Selecting(f), events) == Run(ksl, next, rest);
    KeypressPicksIndex(ksl, f, k);
    if FindKeysym(ksl, k).None? || FindKeysym(ksl, k).value >= |f| {
      assert false;
    }
    j := FindKeysym(ksl, k).value;
    assert ksl[j] == EntryOf(ksl[j].character);
  }

  /**
   * The converse of the round trip: on a frontier the builder shapes, a run
   * of key presses chooses a window only by starting with that window's label.
   */
  lemma {:induction false} ChoosingTypesLabel(ksl: seq<LookupEntry>, f: seq<Node>, events: seq<Event>, w: Window)
    requires ValidAlphabet(ksl)
    requires ForestWellFormed(CharsOf(ksl), f)
    requires AllKeyPresses(events)
    requires Run(ksl, Selecting(f), events) == Chosen(w)
    ensures exists l :: l in LabelledLeaves(f) && l.window == w && TypesLabel(events, l)
    decreases f
  {
    var j := FirstKeyPicksNode(ksl, f, events, w);
    var rest := events[1..];
    match f[j]
    case Leaf(c, w') =>
      LeafLabel(f, j);
      assert TypesLabel(events, Label([c], w'));
    case Internal(c, cs) =>
      AllKeyPressesTail(events);
      ChoosingTypesLabel(ksl, cs, rest, w);
      var l' :| l' in LabelledLeaves(cs) && l'.window == w && TypesLabel(rest, l');
      ChildLabel(f, j, l');
      TypesLabelCons(events, c, l');
  }

  lemma {:induction false} AllKeyPressesTail(events: seq<Event>)
    requires |events| >= 1 && AllKeyPresses(events)
    ensures AllKeyPresses(events[1..])
  {
    forall i | 0 <= i < |events| - 1 ensures events[1..][i].KeyPress? {
      assert events[1..][i] == events[i + 1];
    }
  }

  lemma {:induction false} TypesLabelCons(events: seq<Event>, c: char, l: Label)
    requires |events| >= 1 && events[0] == KeyPress(c as int)
    requires TypesLabel(events[1..], l)
    ensures TypesLabel(events, Label([c] + l.text, l.window))
  {
    var t := [c] + l.text;
    forall i | 0 <= i < |t|
      ensures events[i] == KeyPress(t[i] as int)
    {
      if i > 0 {
        assert events[i] == events[1..][i - 1];
      }
    }
  }

  // -- a worked example

  /**
   * Alphabet "ab" and three windows: the depth is 1, the first bucket holds
   * two windows and the second one.
   */
  lemma ThreeWindowsFrontier()
    ensures InitialiseWindowTracking("ab", [100, 200, 300]) ==
      [Internal('a', [Leaf('a', 100), Leaf('b', 200)]), Leaf('b', 300)]
  {
    var ws: seq<Window> := [100, 200, 300];
    assert TreeDepth(3, 2) == 1;
    assert InitialiseWindowTracking("ab", ws) == Build("ab", 1, ws);
    assert Build("ab", 1, ws) == BuildLevel("ab", 1, 1, 1, 2, 0, ws);
    assert ws[..2] == [100, 200] && ws[2..] == [300];
    assert Build("ab", 0, [100, 200]) == [Leaf('a', 100), Leaf('b', 200)];
    assert BuildLevel("ab", 1, 1, 1, 2, 1, [300]) == [Leaf('b', 300)] by {
      assert [300][1..] == [];
    }
  }

  /**
   * On that frontier typing "b" chooses the third window, "aa" and "ab" the
   * first two, and a key outside the alphabet ends the run.
   */
  lemma ThreeWindowsKeys()
    ensures var ksl := [EntryOf('a'), EntryOf('b')];
      var f := InitialiseWindowTracking("ab", [100, 200, 300]);
      && Run(ksl, Selecting(f), [KeyPress('b' as int)]) == Chosen(300)
      && Run(ksl, Selecting(f), [KeyPress('a' as int), KeyPress('a' as int)]) == Chosen(100)
      && Run(ksl, Selecting(f), [KeyPress('a' as int), KeyPress('b' as int)]) == Chosen(200)
      && Run(ksl, Selecting(f), [KeyPress('c' as int)]) == NoMatch
  {
    ThreeWindowsFrontier();
    var ksl := [EntryOf('a'), EntryOf('b')];
    var inner := [Leaf('a', 100), Leaf('b', 200)];
    var f := [Internal('a', inner), Leaf('b', 300)];
    OuterKeys();
    InnerKeys();
    var ka, kb := KeyPress('a' as int), KeyPress('b' as int);
    assert [ka, ka][1..] == [ka] && [ka, kb][1..] == [kb];
    RunStep(ksl, f, [ka, ka]);
    RunStep(ksl, f, [ka, kb]);
  }

  /** The keys on the example's frontier. */
  lemma OuterKeys()
    ensures var ksl := [EntryOf('a'), EntryOf('b')];
      var f := [Internal('a', [Leaf('a', 100), Leaf('b', 200)]), Leaf('b', 300)];
      && HandleEvent(ksl, f, KeyPress('b' as int)).0 == Chosen(300)
      && HandleEvent(ksl, f, KeyPress('a' as int)).0 == Selecting([Leaf('a', 100), Leaf('b', 200)])
      && HandleEvent(ksl, f, KeyPress('c' as int)).0 == NoMatch
  {
    var ksl := [EntryOf('a'), EntryOf('b')];
    var inner := [Leaf('a', 100), Leaf('b', 200)];
    var f := [Internal('a', inner), Leaf('b', 300)];
    assert FindKeysym(ksl, 'b' as int) == Some(1);
    assert f[0].ch == 'a' && f[1].ch == 'b';
    assert FindNode(f, 'b') == Some(1);
    assert FindKeysym(ksl, 'a' as int) == Some(0);
    assert FindNode(f, 'a') == Some(0);
    assert FindKeysym(ksl, 'c' as int) == None;
  }

  /** The keys below the example's node `a`. */
  lemma InnerKeys()
    ensures var ksl := [EntryOf('a'), EntryOf('b')];
      var inner := [Leaf('a', 100), Leaf('b', 200)];
      && HandleEvent(ksl, inner, KeyPress('a' as int)).0 == Chosen(100)
      && HandleEvent(ksl, inner, KeyPress('b' as int)).0 == Chosen(200)
  {
    var ksl := [EntryOf('a'), EntryOf('b')];
    var inner := [Leaf('a', 100), Leaf('b', 200)];
    assert FindKeysym(ksl, 'a' as int) == Some(0);
    assert FindNode(inner, 'a') == Some(0);
    assert FindKeysym(ksl, 'b' as int) == Some(1);
    assert FindNode(inner, 'b') == Some(1);
  }
}

=== FILE: window_filter.dfy ===
/**
 * Choosing the windows to label (`initialise_tracked_windows`). The X
 * server's answers are inputs: the root's children in stacking order, the
 * window manager's `_NET_CLIENT_LIST` (Root Window Properties section of the
 * Extended Window Manager Hints specification) if the root has one, and per
 * window the attributes reply and the `_NET_WM_WINDOW_TYPE` reply
 * (Application Window Properties section of the same specification).
 */
module WindowFilter {
  import opened Base

  /** `map_state` of a window attributes reply. */
  datatype MapState = Unmapped | Unviewable | Viewable

  /** The fields of a `get_window_attributes` reply the filter reads. */
  datatype Attributes = Attributes(mapState: MapState, overrideRedirect: bool)

  /** Window types named by the Extended Window Manager Hints specification, or any other atom. */
  datatype WindowType =
    | Desktop | Dock | Toolbar | Menu | Utility | Splash | Dialog
    | DropdownMenu | PopupMenu | Tooltip | Notification | Combo | Dnd | Normal
    | OtherType(atom: nat)

  /**
   * One child of the root window with the replies the filter may ask for;
   * None stands for a request whose reply did not arrive.
   * `windowType` holds the atoms of the `_NET_WM_WINDOW_TYPE` reply (empty
   * when the window has no such property).
   */
  datatype TopLevel = TopLevel(id: Window, attributes: Option<Attributes>, windowType: Option<seq<WindowType>>)

  /** The user's lists and the window manager's list (None when the root has no `_NET_CLIENT_LIST`). */
  datatype Lists = Lists(managed: Option<seq<Window>>, whitelist: seq<Window>, blacklist: seq<Window>)

  /** A request whose failure ends the process with `EX_SOFTWARE`. */
  datatype Fatal = GetWindowAttributesFailed(window: Window) | GetWindowTypeFailed(window: Window)

  /** `MAX_WINDOWS`: the number of 32-bit values requested from `_NET_CLIENT_LIST`. */
  const MaxWindows: nat := 1024

  /** `xorg_get_managed_windows`: the property is read with a length of `MAX_WINDOWS`, so longer lists are cut. */
  function ManagedWindows(clientList: Option<seq<Window>>): (r: Option<seq<Window>>)
    ensures r.Some? <==> clientList.Some?
    ensures r.Some? ==> |r.value| == Min(|clientList.value|, MaxWindows)
    ensures r.Some? ==> forall i :: 0 <= i < |r.value| ==> r.value[i] == clientList.value[i]
  {
    match clientList
    case None => None
    case Some(ws) => Some(if |ws| <= MaxWindows then ws else ws[..MaxWindows])
  }

  /** `xorg_contains_window` (and `xorg_window_managed`, the same search): a linear scan. */
  function ContainsWindow(windows: seq<Window>, w: Window): (r: bool)
    ensures r <==> w in windows
  {
    ContainsWindowFrom(windows, w, 0)
  }

  function ContainsWindowFrom(windows: seq<Window>, w: Window, i: nat): (r: bool)
    requires i <= |windows|
    ensures r <==> exists j :: i <= j < |windows| && windows[j] == w
    decreases |windows| - i
  {
    if i == |windows| then false
    else if windows[i] == w then true
    else ContainsWindowFrom(windows, w, i + 1)
  }

  /** `xorg_window_normal`: viewable and not override-redirect. */
  predicate XorgWindowNormal(a: Attributes) {
    a.mapState == Viewable && !a.overrideRedirect
  }

  /** `ewmh_window_normal`: no window type, or a first type the program labels. */
  predicate EwmhWindowNormal(types: seq<WindowType>) {
    |types| == 0 || types[0] in {Toolbar, Menu, Utility, Splash, Dialog, Normal}
  }

  /** The attributes of a normal window are exactly viewable and not override-redirect. */
  lemma XorgWindowNormalExactly(a: Attributes)
    ensures XorgWindowNormal(a) <==> a == Attributes(Viewable, false)
    ensures a.mapState != Viewable ==> !XorgWindowNormal(a)
    ensures a.overrideRedirect ==> !XorgWindowNormal(a)
  {
  }

  /**
   * A window type list is refused exactly when its first type is one the
   * program does not label; only that first type is read.
   */
  lemma EwmhWindowNormalExactly(types: seq<WindowType>)
    ensures !EwmhWindowNormal(types) <==>
      |types| > 0 && (types[0].OtherType? || types[0] in {Desktop, Dock, DropdownMenu, PopupMenu, Tooltip, Notification, Combo, Dnd})
    ensures |types| > 0 ==> EwmhWindowNormal(types) == EwmhWindowNormal(types[..1])
  {
  }

  /** The three list checks, which need no request to the server. */
  predicate ListsAdmit(lists: Lists, w: Window) {
    && (lists.managed.None? || w in lists.managed.value)
    && (|lists.whitelist| == 0 || w in lists.whitelist)
    && w !in lists.blacklist
  }

  /** A window the program labels. */
  predicate Selectable(lists: Lists, t: TopLevel) {
    && ListsAdmit(lists, t.id)
    && t.attributes.Some? && XorgWindowNormal(t.attributes.value)
    && t.windowType.Some? && EwmhWindowNormal(t.windowType.value)
  }

  /**
   * The filter asks for the attributes only of windows the lists admit, and
   * for the window type only of those whose attributes are normal (the
   * conditions are evaluated left to right); a reply that is asked for and
   * missing is fatal.
   */
  predicate NeedsMissingReply(lists: Lists, t: TopLevel) {
    && ListsAdmit(lists, t.id)
    && (t.attributes.None? || (XorgWindowNormal(t.attributes.value) && t.windowType.None?))
  }

  /** Reference definition: the ids of the selectable windows, in server order. */
  function Selected(lists: Lists, all: seq<TopLevel>): seq<Window>
  {
    if |all| == 0 then []
    else
      var t := all[|all| - 1];
      Selected(lists, all[..|all| - 1]) + (if Selectable(lists, t) then [t.id] else [])
  }

  /** The fatal error for the first window whose needed reply is missing. */
  function FirstFailure(lists: Lists, t: TopLevel): Fatal
    requires NeedsMissingReply(lists, t)
  {
    if t.attributes.None? then GetWindowAttributesFailed(t.id) else GetWindowTypeFailed(t.id)
  }

  /** One window's verdict, as the condition in the loop evaluates it. */
  function Admit(lists: Lists, t: TopLevel): (r: Result<bool, Fatal>)
    ensures r.Err? <==> NeedsMissingReply(lists, t)
    ensures r.Err? ==> r.error == FirstFailure(lists, t)
    ensures r.Ok? ==> (r.value <==> Selectable(lists, t))
  {
    if !(lists.managed.Some? && !ContainsWindow(lists.managed.value, t.id))
       && (|lists.whitelist| == 0 || ContainsWindow(lists.whitelist, t.id))
       && !ContainsWindow(lists.blacklist, t.id)
    then
      match t.attributes
      case None => Err(GetWindowAttributesFailed(t.id))
      case Some(a) =>
        if !XorgWindowNormal(a) then Ok(false)
        else
          match t.windowType
          case None => Err(GetWindowTypeFailed(t.id))
          case Some(types) => Ok(EwmhWindowNormal(types))
    else Ok(false)
  }

  /**
   * `initialise_tracked_windows`: keep, in server order, the windows managed
   * by the window manager (when it publishes a list), whitelisted (when there
   * is a whitelist), not blacklisted, viewable, not override-redirect and of
   * a labelled type. The first missing reply that is asked for is fatal.
   */
  method InitialiseTrackedWindows(all: seq<TopLevel>, clientList: Option<seq<Window>>, whitelist: seq<Window>, blacklist: seq<Window>)
    returns (r: Result<seq<Window>, Fatal>)
    ensures var lists := Lists(ManagedWindows(clientList), whitelist, blacklist);
      r.Ok? <==> forall i :: 0 <= i < |all| ==> !NeedsMissingReply(lists, all[i])
    ensures var lists := Lists(ManagedWindows(clientList), whitelist, blacklist);
      r.Ok? ==> r.value == Selected(lists, all)
    ensures var lists := Lists(ManagedWindows(clientList), whitelist, blacklist);
      r.Err? ==> (exists i :: 0 <= i < |all| && NeedsMissingReply(lists, all[i]) &&
                   r.error == FirstFailure(lists, all[i]) &&
                   forall j :: 0 <= j < i ==> !NeedsMissingReply(lists, all[j]))
  {
    var lists := Lists(ManagedWindows(clientList), whitelist, blacklist);
    var windows: seq<Window> := [];
    var i := 0;
    while i < |all|
      invariant 0 <= i <= |all|
      invariant windows == Selected(lists, all[..i])
      invariant forall j :: 0 <= j < i ==> !NeedsMissingReply(lists, all[j])
    {
      assert all[..i + 1][..i] == all[..i];
      var verdict := Admit(lists, all[i]);
      if verdict.Err? {
        return Err(verdict.error);
      }
      if verdict.value {
        windows := windows + [all[i].id];
      }
      i := i + 1;
    }
    assert all[..i] == all;
    return Ok(windows);
  }

  /** A window is selected exactly when some top-level window with that id is selectable. */
  lemma {:induction false} SelectedMembership(lists: Lists, all: seq<TopLevel>, w: Window)
    ensures w in Selected(lists, all) <==> exists i :: 0 <= i < |all| && all[i].id == w && Selectable(lists, all[i])
  {
    if |all| > 0 {
      var init := all[..|all| - 1];
      SelectedMembership(lists, init, w);
      assert forall i :: 0 <= i < |init| ==> init[i] == all[i];
    }
  }

  /** `a` can be obtained from `b` by deleting elements. */
  predicate IsSubsequence(a: seq<Window>, b: seq<Window>)
    decreases |b|
  {
    if |a| == 0 then true
    else if |b| == 0 then false
    else if a[|a| - 1] == b[|b| - 1] then IsSubsequence(a[..|a| - 1], b[..|b| - 1])
    else IsSubsequence(a, b[..|b| - 1])
  }

  /** The ids of a window list, in order. */
  function Ids(all: seq<TopLevel>): (ids: seq<Window>)
    ensures |ids| == |all|
    ensures forall i :: 0 <= i < |all| ==> ids[i] == all[i].id
  {
    seq(|all|, i requires 0 <= i < |all| => all[i].id)
  }

  /** The selection keeps the server's order: it is a subsequence of all ids. */
  lemma {:induction false} SelectedIsSubsequence(lists: Lists, all: seq<TopLevel>)
    ensures IsSubsequence(Selected(lists, all), Ids(all))
  {
    if |all| > 0 {
      var init := all[..|all| - 1];
      SelectedIsSubsequence(lists, init);
      assert Ids(all)[..|all| - 1] == Ids(init);
      var s := Selected(lists, all);
      if Selectable(lists, all[|all| - 1]) {
        assert s[..|s| - 1] == Selected(lists, init);
      } else {
        assert s == Selected(lists, init);
        SubsequenceOfInit(s, Ids(all));
      }
    }
  }

  lemma {:induction false} SubsequenceOfInit(a: seq<Window>, b: seq<Window>)
    requires |b| > 0 && IsSubsequence(a, b[..|b| - 1])
    ensures IsSubsequence(a, b)
    decreases |a| + |b|
  {
    if |a| > 0 && a[|a| - 1] == b[|b| - 1] {
      var b' := b[..|b| - 1];
      // a is a subsequence of b' and so, dropping its last element, of b'
      SubsequenceDropLast(a, b');
    }
  }

  lemma {:induction false} SubsequenceDropLast(a: seq<Window>, b: seq<Window>)
    requires |a| > 0 && IsSubsequence(a, b)
    ensures IsSubsequence(a[..|a| - 1], b)
    decreases |a| + |b|
  {
    assert |b| > 0;
    var a', b' := a[..|a| - 1], b[..|b| - 1];
    if a[|a| - 1] == b[|b| - 1] {
      assert IsSubsequence(a', b');
      if |a'| > 0 {
        SubsequenceOfInit(a', b);
      }
    } else {
      SubsequenceDropLast(a, b');
      if |a'| > 0 {
        SubsequenceOfInit(a', b);
      }
    }
  }
}
